=== FILE: README.md ===
# handle_conn: an HTTP/1.1 connection handler, in Dafny

This project models the request/response engine of a small HTTP/1.1 file
server, the function `handle_conn` in `server/connections.go`, and proves
properties of the model. One pass of the connection loop does this:

1. It reads a request's text and splits it on CRLF.
2. It collects the header lines into a map.
3. It slices off the body lines.
4. It splits the start-line's target on `/` and percent-decodes every segment.
5. It routes on the second segment: the root, `echo`, `user-agent`, or `files` with GET or POST.
6. It gzip-compresses the body when `Accept-Encoding` mentions gzip.
7. It sets `Connection` and `Content-Length`.
8. It writes the head and the body, then loops again unless the client asked to close.

A Dafny `string` stands for a Go byte string, one `char` per byte, so a
Content-Length is the length of the body string.

The modules follow the stages:

| module | file | what it holds |
|---|---|---|
| `Strings` | strings.dfy | Go's `strings.Index`, `Split`, `SplitN(_, _, 2)`, `Join`, `Contains`, ASCII `ToLower`; `fmt.Sprint` of a non-negative int |
| `Percent` | percent.dfy | `url.PathUnescape` of one segment |
| `Fields` | fields.dfy | header fields; a Go map filled by assignment; Go's map iteration order as any rearrangement |
| `Request` | request.dfy | the parse (connections.go:33-64) and a reference renderer for requests |
| `FilePath` | filepath.dfy | `filepath.Clean`, `Join` and `Rel`, all lexical; the upload guard |
| `Routes` | routes.dfy | the routing switch (connections.go:77-159) over a file store |
| `Response` | response.dfy | compression, response headers, the bytes written, and a client-side reader |
| `Connection` | connection.dfy | one pass of the loop and the loop over a sequence of read results |

### Modelling choices

- **Clean.** `filepath.Clean` works on a path's form: whether it is rooted, plus a
  stack of elements in which `.` is dropped and `..` pops an element (Plan 9
  lexical rules). `Clean` renders that form back to text.
- **Rel.** `filepath.Rel` compares the two cleaned forms element by element. It keeps
  Go's quirks:
  - it fails when exactly one of the two is rooted;
  - it fails when the base would have to climb out of a `..`;
  - it answers `.` for equal paths.
- **File store.** The file system is a map from a clean path form to file contents.
  - Directories are implied by the files below them.
  - Opening a directory for writing, or creating a directory where a file stands, fails because of what the map holds.
  - Any other failure of `MkdirAll`, `OpenFile` or `WriteString` is an environment choice, `FileFault`.
  - A failed write leaves the file created and holding a prefix of the content, possibly empty: `O_TRUNC` has already emptied it, and `WriteString` may have written part of the content before failing. The length of that prefix is part of `FileFault`.
- **Halts.** The handler can stop early in two ways, kept apart as `Request.Halt`:
  - a `return`: a malformed header line, an undecodable segment, a compression error, or a failed write;
  - a Go panic: indexing `start_line[1]`, `path_parts[1]` or `path_parts[2]` when the element is missing.
- **Header order.** Go's map iteration order for the response headers is chosen by the
  environment, as a sequence of transpositions. Every property about the bytes
  on the wire holds for every order.
- **The loop.** `Connection.Serve` runs a handler over a sequence of read results. A
  read result is a request's text together with the environment's choices for
  that pass, or end of stream, or a read error. It is written for any
  handler; `Connection.Server` is the one `handle_conn` uses.
- **The client.** `Response.ReadResponse` and `Connection.ReadMessages` define what a
  client reads back from the bytes written: a status line, header lines until
  a blank line, then as many body bytes as Content-Length says.

### Behaviour worth knowing

- **Missing segments.** A path without a second segment, or without a third segment for `echo` or a GET under `files`, makes the handler index past the end of `path_parts` and panic. No reply is written.
- **Other methods under `files`.** A method other than GET or POST leaves the reply as declared: status 0, an empty reason phrase, no Content-Type and an empty body (`Routes.RouteContent`).
- **The body slice.** The body is `lines[i+1:]`, where `i` is the index of the blank line within `lines[1:]`. So the body starts with that blank line, and the body joined by "\n" starts with a newline (`Request.ParseBody`, `Request.UploadContentLeadingNewline`). An upload writes exactly that joined text, so an uploaded file starts with a newline (`Connection.HandleUpload`).
  - When there is no blank line, the body is the last line read, even though that line was also taken as a header.
  - When there is only a start-line, the body is empty.
- **Panics.** A panic in the handler's goroutine is not recovered, so the whole process ends.
- **The empty directory.** With no directory given, `dir` is "". A POST then writes the relative path `Clean(name)`, while a GET reads `"/" + Clean(name)` from the root. So an upload answers 201 and a download of the same name answers 404 (`Routes.EmptyDirUploadUnreadable`), unless the server runs in `/`, where the relative and the rooted path name the same file.
- **Uploads under several segments.** POST /files/a/b stores `dir/a/b`. A GET reads only `path_parts[2]`, so it reaches that file only through one segment holding a slash, percent-encoded. For example, GET /files/a%2Fb reads it (`Routes.SegmentsFetchedAsOne`), and so does any other segment that cleans to "a/b", such as "a%2F%2Fb" or ".%2Fa%2Fb".
- **Header order.** The response header order is not stable: Go randomises map iteration on every pass.

## Model

| member | source | states |
|---|---|---|
| Strings.Split | server/connections.go:33 | the pieces join back to the input with the separator, none contains the separator, and there is at least one (which is why the check at lines 34-37 never fires) |
| Strings.SplitJoin | server/connections.go:33 | splitting a join of separator-free pieces gives back exactly those pieces |
| Strings.SplitAppend | server/connections.go:57 | splitting distributes over one occurrence of a non-overlapping separator |
| Strings.Cut | server/connections.go:45-50 | no result exactly when the line lacks ": "; otherwise name + ": " + value is the line and the name has no ": ", so a value keeps any later ": " |
| Strings.CutJoin | server/connections.go:45 | a name without ": " followed by ": " and any value splits back into that name and value |
| Strings.Lower | server/connections.go:179 | lower-casing keeps the length, leaves no ASCII capital, and changes only capitals, each to its lower-case letter; with `Strings.LowerClose`, a value lower-cases to "close" exactly when it spells "close" in any mix of cases |
| Strings.LowerClose | server/connections.go:179 | a value lower-cases to "close" exactly when each of its five characters is that letter of "close" or of "CLOSE" |
| Strings.Decimal | server/connections.go:187 | the decimal text of a count is non-empty digits without a leading zero, and a decimal reader reads back the same count |
| Percent.Unescape | server/connections.go:59 | a decoded segment is no longer than the segment, and a segment without '%' decodes to itself; `Percent.UnescapeFails` and `Percent.UnescapeEscapeAll` give when it fails and its inverse |
| Percent.UnescapeFails | server/connections.go:58-63 | decoding a segment fails exactly when some '%' is not followed by two hexadecimal digits |
| Percent.UnescapeEscapeAll | server/connections.go:59 | percent-encoding every byte of a segment decodes back to the segment |
| Percent.UnescapePlain | server/connections.go:59 | a segment without '%' decodes to itself; in particular '+' stays '+' |
| Fields.CollectSpec | server/connections.go:38-50 | after assigning fields in order, the map holds the old keys plus the names assigned; a name holds the value of its last field; other keys keep their old values |
| Fields.CollectDistinct | server/connections.go:68-73 | with distinct names, every field's value is what the map holds |
| Fields.Put | server/connections.go:73 | assigning into a field list keeps names distinct, contains the new field, and keeps every field of another name |
| Fields.PutAssigns | server/connections.go:82 | assigning into a field list is map assignment on its map view |
| Fields.ShuffleCollect | server/connections.go:192-194 | a reader that assigns the header lines in any order the map iteration yields ends up with the same map |
| Fields.FieldLineReads | server/connections.go:193 | a field whose name has no ':' and no CR, and whose value has no CR, is written as a line that splits back into the same name and value |
| Request.DecodeSegments | server/connections.go:58-64 | decoding succeeds exactly when every segment decodes, each part being its segment decoded; otherwise the segment reported is one that fails |
| Request.ScanHeaders | server/connections.go:41-51 | the header loop stops on an empty line or at the last line and never past it; `Request.ScanFails`, `Request.ScanReportsFirst` and `Request.ScanCollects` give when it aborts, which line it reports, and the map it builds |
| Request.ScanFails | server/connections.go:41-49 | the header loop aborts exactly when some line before the first empty line has no ": " |
| Request.ScanReportsFirst | server/connections.go:41-49 | an aborting header loop reports the first header-block line without ": " |
| Request.ScanCollects | server/connections.go:41-51 | when the header loop succeeds, its map is the one left by assigning the header-block fields in order |
| Request.ParseHeaders | server/connections.go:33-51 | only the lines between the start-line and the first empty line are read as headers; a malformed one aborts; later fields of the same name win |
| Request.ParseBody | server/connections.go:39-52 | the body starts at the blank separator line; without one it is the last line; with no line after the start-line it is empty |
| Request.ParseStartLine | server/connections.go:53-57 | fewer than two space-separated tokens panics; otherwise the method is token 0, the target token 1, and the path its decoded segments |
| Request.PathDecoding | server/connections.go:53-64 | a parsed path has one decoded part per '/'-separated segment; an undecodable-segment abort names a segment that fails to decode |
| Request.RequestRoundTrip | server/connections.go:33-64 | rendering a request from a method, target, sendable fields and CR-free body lines, then parsing it, gives back that method, target and decoded path, the fields' map, and the body with the blank line in front |
| Request.ParseLines | server/connections.go:33-64 | a parsed request has at least one path part and a body made of lines it was given; `Request.ParseHeaders`, `Request.ParseBody` and `Request.ParseStartLine` give each part |
| Request.ParseRequest | server/connections.go:33-64 | the same for the request text split at CRLF, and the target splits and joins back unchanged at '/'; `Request.RequestRoundTrip` is its inverse |
| Request.UploadContentLeadingNewline | server/connections.go:52 | for a rendered request, the parsed body joined by "\n" is a newline followed by the body lines joined by "\n" whenever there are body lines, and empty otherwise |
| FilePath.Lex | server/connections.go:116 | a path's clean form is canonical (names only, ".." only as a leading run, never under the root) and is rooted exactly when the path starts with '/' |
| FilePath.Clean | server/connections.go:116 | the cleaned text has the same form as the path; with `FilePath.CleanIdempotent` and `FilePath.LexRender`, cleaning is idempotent and every canonical form is reached |
| FilePath.CleanIdempotent | server/connections.go:116 | cleaning does not change a path's form, and cleaning twice is cleaning once |
| FilePath.LexRender | server/connections.go:116 | every canonical form is the clean form of its own rendering |
| FilePath.RenderInjective | server/connections.go:116 | two canonical forms render to the same text exactly when they are equal |
| FilePath.JoinPath | server/connections.go:116-117 | joining gives "" exactly when every element is empty, and otherwise a clean path with the form of the elements from the first non-empty one on, joined with "/" |
| FilePath.CommonPrefix | server/connections.go:118 | the length of the longest shared prefix of two element lists |
| FilePath.RelForms | server/connections.go:118 | Rel on clean forms; `FilePath.RelFormsGuard` gives exactly when its answer passes the guard |
| FilePath.Rel | server/connections.go:118 | Rel on the cleaned directory and target; `FilePath.RelGuard` gives exactly when its answer passes the guard |
| FilePath.RelFormsGuard | server/connections.go:118-119 | on clean forms, the guard passes exactly when the target is the directory, or below it through a first element not starting with ".." |
| FilePath.RelGuard | server/connections.go:118-119 | the same for the directory and target as strings |
| FilePath.AdmittedWithin | server/connections.go:119 | a target the guard admits lies lexically in the directory's tree |
| FilePath.GuardKeepsUnderDir | server/connections.go:115-125 | every target the guard lets through, and its clean form, lies lexically under the directory |
| FilePath.ResolveAppend | server/connections.go:103 | resolving two runs of elements one after the other is resolving their concatenation |
| FilePath.LexAppend | server/connections.go:103 | the form of dir + "/" + name is the name's pieces resolved on top of the directory's form |
| Routes.GetTarget | server/connections.go:103 | the path a GET reads, the directory + "/" + the cleaned segment; `Routes.GetStaysUnderDir` and `Routes.GetLeavesDir` say where it lies |
| Routes.PostTarget | server/connections.go:116-117 | the path an upload writes, the directory joined with the cleaned joined segments; `Routes.SegmentsFetchedAsOne` ties it to `Routes.GetTarget` |
| Routes.Store | server/connections.go:126-152 | the create-and-write steps after the guard; `Routes.StoreTouches` states their outcome |
| Routes.PostFile | server/connections.go:115-152 | an upload: guard, then store; `Routes.PostFileContained`, `Routes.PostFileKeepsLayout` and `Routes.PostFileStatus` state its outcome |
| Routes.ReadFileClean | server/connections.go:103 | reading a path and reading its clean spelling give the same result |
| Routes.GetFile | server/connections.go:102-114 | a GET answers 200 with the file's bytes as application/octet-stream exactly when a file is stored at the path's clean form, and 404 otherwise |
| Routes.GetStaysUnderDir | server/connections.go:103 | for a non-empty directory, a GET of a name without ".." once cleaned reads the directory's form extended by the name's elements, which lies under the directory |
| Routes.GetLeavesDir | server/connections.go:58-63 | GET has no guard: the segment "..%2Fx" decodes to "../x", and a GET of it under "/srv" reads "/x", outside "/srv" |
| Routes.DotDotNameRefused | server/connections.go:119 | the guard's prefix test also refuses "..foo" directly under the directory, which lies inside it |
| Routes.StoreTouches | server/connections.go:126-152 | after the guard, storing answers 400 exactly when refused, changes at most the one target and only when admitted, and answers 201 exactly when the content is stored and no step failed |
| Routes.PostFileContained | server/connections.go:115-152 | an upload answers 400 exactly when the guard refuses its target; it changes at most that one file, which lies under the directory; it answers 201 exactly when the content was stored there with no fault, no file above it and no directory at it, and every other admitted upload answers 500 "500 Internal Server Error" |
| Routes.PostFileKeepsLayout | server/connections.go:115-152 | uploads keep the store a tree with the served directory as a directory: no file below another, none at or above the directory |
| Routes.PostFileStatus | server/connections.go:119-151 | an upload answers one of the 400, 500 and 201 replies, each text/plain with its fixed reason and body |
| Routes.SameFile | server/connections.go:103-117 | a POST and a GET of the same one-segment name, empty or not, under a non-empty directory address the same file |
| Routes.SegmentsFetchedAsOne | server/connections.go:103-117 | for a non-empty directory and a non-empty first segment, an upload under the segments `segs` writes the file a GET of the one segment "segs joined by /" reads |
| Routes.UploadThenDownload | server/connections.go:102-152 | for a non-empty directory and a non-empty first segment, after a successful upload under some segments, a GET of the segments joined by "/" answers 200 with exactly the uploaded content |
| Routes.EmptyDirUploadUnreadable | server/connections.go:103-152 | with the empty directory, an upload of "a" answers 201 and stores the relative path "a", and a GET of "a" then answers 404; relative paths are kept apart from rooted ones, so this holds unless the server runs in `/` |
| Routes.Route | server/connections.go:77-159 | the switch panics exactly when the second segment is missing, or the third is missing for echo or a GET of files; only a POST under files changes the files, and it answers and leaves the files as an upload of the body lines joined by "\n" (line 141) under the segments after "files" does |
| Routes.RouteStatus | server/connections.go:77-159 | the reply is 200 exactly for the root, echo, user-agent with the header, or a GET of a stored file; 404 exactly for an unknown segment or a GET of a missing file; status 0 exactly for another method under files; 400 exactly for user-agent without the header or an upload the guard refuses |
| Routes.RouteContent | server/connections.go:77-159 | only the status-0 reply lacks a Content-Type, and it has an empty reason and body; outside files the type is text/plain; the root has an empty body; echo returns its segment; user-agent returns the header, or without it is the 400 reply "User-Agent header missing"; 200 says "OK"; each of 201, 404 and 500 is its one fixed reply, and 400 one of two; a successful GET returns the file as application/octet-stream |
| Routes.RoutePlain | server/connections.go:77-159 | no reply's reason phrase or Content-Type holds a CR, so each can be written on a header line |
| Response.Finalize | server/connections.go:161-187 | finalising fails exactly when gzip is accepted, the body is not empty and the gzip writer fails; otherwise status and reason are kept, the body is the gzip output when compressed and the reply body otherwise, and the header fields are those of the header map for that body's length, with distinct names |
| Response.ResponseFieldMap | server/connections.go:68-187 | the header map is Content-Encoding: gzip when accepted (line 73), then Content-Type (lines 82-150), then Connection (lines 181-183), then Content-Length (line 187), assigned in that order |
| Response.ResponseHeaders | server/connections.go:70-75 | Content-Encoding is present exactly when gzip is accepted; Content-Type exactly when the reply has one; Connection is "close" exactly when the request's lower-cased Connection is "close", and "keep-alive" otherwise; Content-Length reads back as the final body's length |
| Response.EmptyBodyStillLabelled | server/connections.go:70-75 | with gzip accepted and an empty reply body, nothing is compressed, yet Content-Encoding: gzip is sent with Content-Length 0 |
| Response.GzipTransparent | server/connections.go:161-177 | for any gzip writer that a decompressor inverts, a client that undoes the announced Content-Encoding recovers exactly the reply body |
| Response.Writes | server/connections.go:199-211 | a response is written in one write when its body is empty and two otherwise, and no write is empty |
| Response.Head | server/connections.go:189-194 | the status line, the header lines in the order the environment picks, and the blank line; `Response.ReadFieldsText` reads the header lines back |
| Response.Wire | server/connections.go:189-211 | the bytes written for a response; `Response.WireIsHeadAndBody` and `Response.ResponseRoundTrip` state what a client reads back |
| Response.WireIsHeadAndBody | server/connections.go:189-211 | the bytes written are the head (status line, header lines, blank line) followed by the body |
| Response.ReadFieldsText | server/connections.go:192-195 | a reader of header lines up to the blank line gets back the map those fields assign, and the rest of the stream untouched |
| Response.FinalizeFramed | server/connections.go:161-195 | every finalised reply can be framed: its reason has no CR and its header fields are writable and read back |
| Response.ResponseRoundTrip | server/connections.go:189-211 | for every header order, a client reading the written bytes, followed by anything, gets exactly the status, reason, header map and body, and the rest of the stream |
| Connection.Deliver | server/connections.go:199-214 | the response counts as delivered exactly when the head write, and the body write if any, succeed; if so the client reads it and the loop continues exactly when no close was asked for; a failed write halts after what was written |
| Connection.Respond | server/connections.go:77-214 | a pass that does not stop has delivered a response; a halted pass wrote nothing unless its body write failed; only a POST under files changes the files |
| Connection.RespondUpload | server/connections.go:115-152 | a parsed POST under files leaves the files an upload of its body joined by "\n" leaves; when 201 is written, exactly that text is stored at the upload's target; any other change leaves a prefix of it there |
| Connection.HandleUpload | server/connections.go:33-152 | the same from the wire: for a rendered POST under files with body lines B, the text stored is "\n" followed by B joined by "\n" (empty when B is empty), at the clean form of the target the segments after "files" name |
| Connection.Handle | server/connections.go:33-214 | the same for a whole pass from the request text; a file change implies the text parsed as a POST under files |
| Connection.HandleFramed | server/connections.go:186-211 | whatever one pass writes is either a response a client reads back in full or nothing; a body-write failure is the only partial output |
| Connection.KeepAliveIffContinue | server/connections.go:179-184 | when a response is delivered, the loop goes on exactly when it says keep-alive, and stops exactly when it says close, which happens exactly when the request asked to close |
| Connection.Serve | server/connections.go:20-31 | the loop answers at most once per read result; `Connection.ServeStopped`, `Connection.ServeAppend` and `Connection.ServeAnswersAll` state how it runs |
| Connection.ServeStopped | server/connections.go:20-31 | once the loop has stopped, later read results change nothing |
| Connection.ServeAppend | server/connections.go:20-31 | serving two runs of read results is serving the first and then the second on the files it left |
| Connection.ServeAnswersAll | server/connections.go:20-31 | a loop still waiting for its next read has delivered one response per request read |
| Connection.ServeFramed | server/connections.go:186-214 | unless a body write failed, a client reading everything written gets exactly the responses delivered, in order |
| Connection.CloseAnswersOnce | server/connections.go:179-214 | a request asking to close gets exactly one response saying close, and the connection ends however many requests follow |

## Left out

- server/server.go and main.go are not part of this model: listening, accepting, one goroutine per connection, the directory flag and exit codes.
- Socket I/O is not modelled. A read result stands for one complete request: no TCP fragmentation, no pipelining, and no 1024-byte read buffer. A failed write is taken to deliver nothing, so a partial write is not modelled.
- Logging (`fmt.Println`, `fmt.Print`) is not modelled.
- gzip internals are not modelled. The gzip writer is an oracle from a body to its compressed bytes, or to a failure.
- File system effects are not modelled directly. The store is a map from clean paths to contents, and every failure the map does not show comes from `FileFault`.
  - Permissions, symbolic links, concurrent writers and `defer file.Close` are out of scope.
  - Parent directories that `MkdirAll` creates are implied by the file stored below them.
- The check `len(lines) < 1` at connections.go:34-37 is not modelled as a branch. It can never fire, and `Strings.Split` proves that.
- A panic halts the connection (`Request.Panicked`). The process-wide crash it causes in Go is not modelled.
- Connection.Serve: whether every rearrangement of the header fields can be reached by the environment's transpositions is not proved. Every property is stated for every sequence of transpositions.
- Relative paths form a namespace of their own: the process's working directory is not modelled, so a relative path and the rooted path it stands for are different files in the store.
- Strings.Lower: lower-cases ASCII letters only. Go's `strings.ToLower` also folds non-ASCII letters. Because a Dafny char stands for one byte here, that case is not modelled.

=== FILE: connection.dfy ===
/** The loop of `handle_conn` (server/connections.go lines 14-31 and
    179-214): read a request, parse it, route it, finalise and write the
    response, and go round again unless the client asked to close.

    The socket is a sequence of read results. Everything the environment
    decides during one pass (file-system faults, the header map's iteration
    order, whether each write succeeds) travels with the read that starts
    that pass; the served directory and the gzip writer are fixed for the
    connection. A failed write is taken to deliver nothing of what it was
    given. */
module Connection {
  import opened Strings
  import opened Fields
  import Request
  import Routes
  import Response
  import FilePath

  /** The environment's choices for one pass through the loop. */
  datatype Io = Io(fault: Routes.FileFault, swaps: seq<(nat, nat)>, headWritten: bool, bodyWritten: bool)

  /** One result of `s.Read` (connections.go:22-30): a request's text, end
      of stream, or any other read error. */
  datatype Event = Received(data: string, io: Io) | EndOfStream | ReadError

  datatype Env = Env(dir: string, gzip: Response.Gzip)

  /** Why the loop returned: a parse, route or write failure (a `return` or a
      panic), a request to close, or the read side ending. */
  datatype Stop = Halted(halt: Request.Halt) | CloseRequested | ClientClosed | ReadFailed

  /** One pass: the writes that reached the client, the files afterwards,
      the response as a client reads it when it was written in full, and
      why the loop stops after this pass, if it does. */
  datatype Exchange = Exchange(
    writes: seq<string>,
    files: Routes.Files,
    answer: Option<Response.Message>,
    stop: Option<Stop>)

  function MessageOf(r: Response.Response): Response.Message
  {
    Response.Message(r.status, r.reason, FieldMap(r.fields), r.body)
  }

  /** connections.go:199-214: the head is written, then the body when
      there is one; the loop returns after a failed write, or after a
      complete response when the client asked to close. */
  function Deliver(r: Response.Response, closing: bool, io: Io, fs: Routes.Files): (x: Exchange)
    ensures x.files == fs
    ensures x.answer.Some? <==> io.headWritten && (r.body == "" || io.bodyWritten)
    ensures x.answer.Some? ==> x.answer == Some(MessageOf(r)) && x.writes == Response.Writes(r, io.swaps)
    ensures x.answer.Some? ==> (x.stop.None? <==> !closing) && (x.stop.Some? <==> x.stop == Some(CloseRequested))
    ensures x.answer.None? ==> x.stop.Some? && x.stop.value.Halted?
    ensures x.answer.None? && x.stop != Some(Halted(Request.Aborted(Request.BodyWriteFailed))) ==> x.writes == []
  {
    var ws := Response.Writes(r, io.swaps);
    if !io.headWritten then
      Exchange([], fs, None, Some(Halted(Request.Aborted(Request.HeadWriteFailed))))
    else if |ws| == 2 && !io.bodyWritten then
      Exchange([ws[0]], fs, None, Some(Halted(Request.Aborted(Request.BodyWriteFailed))))
    else
      Exchange(ws, fs, Some(MessageOf(r)), if closing then Some(CloseRequested) else None)
  }

  /** connections.go:66-214 for a parsed request: route it, finalise the
      reply, deliver it. */
  function Respond(env: Env, req: Request.Request, io: Io, fs: Routes.Files): (x: Exchange)
    ensures x.stop.None? ==> x.answer.Some?
    ensures x.answer.None? && x.stop != Some(Halted(Request.Aborted(Request.BodyWriteFailed))) ==> x.writes == []
    ensures x.files != fs ==> req.verb == "POST" && |req.path| >= 2 && req.path[1] == "files"
  {
    match Routes.Route(env.dir, req, fs, io.fault)
    case Crashed(site) => Exchange([], fs, None, Some(Halted(Request.Panicked(site))))
    case Replied(reply, fs') =>
      match Response.Finalize(req.headers, reply, env.gzip)
      case None => Exchange([], fs', None, Some(Halted(Request.Aborted(Request.CompressionFailed))))
      case Some(r) => Deliver(r, Response.WantsClose(req.headers), io, fs')
  }

  /** connections.go:33-214 for one request text. */
  function Handle(env: Env, data: string, io: Io, fs: Routes.Files): (x: Exchange)
    ensures x.stop.None? ==> x.answer.Some?
    ensures x.answer.None? && x.stop != Some(Halted(Request.Aborted(Request.BodyWriteFailed))) ==> x.writes == []
    ensures x.files != fs ==>
              && Request.ParseRequest(data).Parsed?
              && Request.ParseRequest(data).req.verb == "POST"
              && |Request.ParseRequest(data).req.path| >= 2
              && Request.ParseRequest(data).req.path[1] == "files"
  {
    match Request.ParseRequest(data)
    case Halted(h) => Exchange([], fs, None, Some(Halted(h)))
    case Parsed(req) => Respond(env, req, io, fs)
  }

  /** An upload, once parsed: the files afterwards are what storing the
      body lines joined by "\n" at the target the segments after "files"
      name leaves; a 201 means exactly that content is stored there, and
      any other change leaves a prefix of it. */
  lemma RespondUpload(env: Env, req: Request.Request, io: Io, fs: Routes.Files)
    requires req.verb == "POST" && |req.path| >= 2 && req.path[1] == "files"
    ensures var content := Join(req.body, "\n");
            var t := FilePath.Lex(Routes.PostTarget(env.dir, req.path[2..]));
            var x := Respond(env, req, io, fs);
            && x.files == Routes.PostFile(env.dir, req.path[2..], content, fs, io.fault).1
            && (x.answer.Some? && x.answer.value.status == 201 ==> x.files == fs[t := content])
            && (x.files != fs ==> t in x.files && x.files[t] <= content)
  {
    var content := Join(req.body, "\n");
    var (reply, fs') := Routes.PostFile(env.dir, req.path[2..], content, fs, io.fault);
    assert Routes.Route(env.dir, req, fs, io.fault) == Routes.Replied(reply, fs');
    Routes.PostFileStatus(env.dir, req.path[2..], content, fs, io.fault);
    Routes.PostFileContained(env.dir, req.path[2..], content, fs, io.fault);
    var x := Respond(env, req, io, fs);
    assert x.files == fs';
    if x.answer.Some? && x.answer.value.status == 201 {
      assert reply.status == 201;
      assert reply == Routes.Created;
    }
  }

  /** An upload from the wire: a POST under files, rendered with header
      fields `hfs` and body lines `bodyLines`, writes the body lines joined
      by "\n" behind the blank separator line, so with a leading newline,
      at the target the segments after "files" name. A 201 means exactly
      that content is stored there; any other change leaves a prefix of it. */
  lemma HandleUpload(env: Env, target: string, hfs: seq<Field>, bodyLines: seq<string>, io: Io, fs: Routes.Files)
    requires Lacks(target, ' ') && Lacks(target, '\r')
    requires forall i | 0 <= i < |hfs| :: Sendable(hfs[i])
    requires forall i | 0 <= i < |bodyLines| :: Lacks(bodyLines[i], '\r')
    requires Request.DecodeSegments(Split(target, "/")).Decoded?
    requires var parts := Request.DecodeSegments(Split(target, "/")).parts;
             |parts| >= 2 && parts[1] == "files"
    ensures var parts := Request.DecodeSegments(Split(target, "/")).parts;
            var content := if bodyLines == [] then "" else "\n" + Join(bodyLines, "\n");
            var t := FilePath.Lex(Routes.PostTarget(env.dir, parts[2..]));
            var x := Handle(env, Request.RenderRequest("POST", target, hfs, bodyLines), io, fs);
            && x.files == Routes.PostFile(env.dir, parts[2..], content, fs, io.fault).1
            && (x.answer.Some? && x.answer.value.status == 201 ==> x.files == fs[t := content])
            && (x.files != fs ==> t in x.files && x.files[t] <= content)
  {
    var raw := Request.RenderRequest("POST", target, hfs, bodyLines);
    Request.RequestRoundTrip("POST", target, hfs, bodyLines);
    Request.UploadContentLeadingNewline("POST", target, hfs, bodyLines);
    var parts := Request.DecodeSegments(Split(target, "/")).parts;
    var req := Request.ParseRequest(raw).req;
    assert req.verb == "POST" && req.path == parts;
    assert Join(req.body, "\n") == if bodyLines == [] then "" else "\n" + Join(bodyLines, "\n");
    RespondUpload(env, req, io, fs);
    assert Handle(env, raw, io, fs) == Respond(env, req, io, fs);
  }

  /** The work of one pass, given the request text, the environment's
      choices and the files. */
  type Handler = (string, Io, Routes.Files) -> Exchange

  /** The handler of `handle_conn` for a served directory and gzip writer. */
  function Server(env: Env): Handler
  {
    (data: string, io: Io, fs: Routes.Files) => Handle(env, data, io, fs)
  }

  /** Everything a connection does: all the writes in order, the files at
      the end, the responses written in full, and why it stopped (None:
      still waiting for the next read). */
  datatype Trace = Trace(writes: seq<string>, files: Routes.Files, answers: seq<Response.Message>, stop: Option<Stop>)

  function Answers(x: Exchange): (ms: seq<Response.Message>)
    ensures |ms| <= 1
  {
    if x.answer.Some? then [x.answer.value] else []
  }

  /** The loop (connections.go:20-31, 212-214) over the read results
      `events`, one pass of `handle` per request read. */
  function Serve(handle: Handler, events: seq<Event>, fs: Routes.Files): (t: Trace)
    ensures |t.answers| <= |events|
    decreases |events|
  {
    if events == [] then Trace([], fs, [], None)
    else
      match events[0]
      case EndOfStream => Trace([], fs, [], Some(ClientClosed))
      case ReadError => Trace([], fs, [], Some(ReadFailed))
      case Received(data, io) =>
        var x := handle(data, io, fs);
        if x.stop.Some? then Trace(x.writes, x.files, Answers(x), x.stop)
        else
          var t := Serve(handle, events[1..], x.files);
          Trace(x.writes + t.writes, t.files, Answers(x) + t.answers, t.stop)
  }

  // ---------------------------------------------------------------------
  // A client reading the byte stream.

  /** Responses read one after another, each framed by its Content-Length,
      until the stream is used up. */
  function ReadMessages(wire: string): (ms: Option<seq<Response.Message>>)
    decreases |wire|
  {
    if wire == "" then Some([])
    else
      match Response.ReadResponse(wire)
      case None => None
      case Some((m, rest)) =>
        if |rest| >= |wire| then None
        else
          match ReadMessages(rest)
          case None => None
          case Some(ms) => Some([m] + ms)
  }

  lemma {:induction false} ConcatAppend(a: seq<string>, b: seq<string>)
    ensures Response.Concat(a + b) == Response.Concat(a) + Response.Concat(b)
    decreases |a|
  {
    if a != [] {
      assert (a + b)[0] == a[0];
      assert (a + b)[1..] == a[1..] + b;
      ConcatAppend(a[1..], b);
      assert Response.Concat(a + b) == a[0] + Response.Concat(a[1..] + b);
    } else {
      assert a + b == b;
    }
  }

  lemma ReadMessagesStep(w: string, m: Response.Message, more: string)
    requires w != "" && Response.ReadResponse(w + more) == Some((m, more))
    ensures ReadMessages(w + more) ==
              match ReadMessages(more) case None => None case Some(ms) => Some([m] + ms)
  {
  }

  lemma WireNotEmpty(r: Response.Response, swaps: seq<(nat, nat)>)
    ensures Response.Wire(r, swaps) != ""
  {
    Response.WireIsHeadAndBody(r, swaps);
    assert |Response.Head(r, swaps)| >= 2;
  }

  /** What the loop needs of one pass for its output to read back: a pass
      that goes on wrote a response, a pass without a response wrote
      nothing unless its body write broke off, and a response written in
      full reads back as the recorded answer whatever follows it. */
  ghost predicate FramedExchange(x: Exchange)
  {
    && (x.stop.None? ==> x.answer.Some?)
    && (x.answer.None? && x.stop != Some(Halted(Request.Aborted(Request.BodyWriteFailed))) ==> x.writes == [])
    && (x.answer.Some? ==>
          && Response.Concat(x.writes) != ""
          && forall more :: Response.ReadResponse(Response.Concat(x.writes) + more) == Some((x.answer.value, more)))
  }

  /** A well-framed response, delivered, reads back as itself. */
  lemma DeliverFramed(r: Response.Response, closing: bool, io: Io, fs: Routes.Files)
    requires Response.WellFramed(r)
    ensures FramedExchange(Deliver(r, closing, io, fs))
  {
    var x := Deliver(r, closing, io, fs);
    if x.answer.Some? {
      WireNotEmpty(r, io.swaps);
      forall more
        ensures Response.ReadResponse(Response.Concat(x.writes) + more) == Some((x.answer.value, more))
      {
        Response.ResponseRoundTrip(r, io.swaps, more);
      }
    }
  }

  lemma RespondFramed(env: Env, req: Request.Request, io: Io, fs: Routes.Files)
    ensures FramedExchange(Respond(env, req, io, fs))
  {
    match Routes.Route(env.dir, req, fs, io.fault)
    case Crashed(_) =>
    case Replied(reply, fs') =>
      Routes.RoutePlain(env.dir, req, fs, io.fault);
      match Response.Finalize(req.headers, reply, env.gzip)
      case None =>
      case Some(r) =>
        Response.FinalizeFramed(req.headers, reply, env.gzip);
        DeliverFramed(r, Response.WantsClose(req.headers), io, fs');
  }

  /** Every response `handle_conn` writes in full is read back by a client
      as the answer recorded for it, whatever follows on the stream. */
  lemma HandleFramed(env: Env, data: string, io: Io, fs: Routes.Files)
    ensures FramedExchange(Handle(env, data, io, fs))
  {
    if Request.ParseRequest(data).Parsed? {
      RespondFramed(env, Request.ParseRequest(data).req, io, fs);
    }
  }

  /** The Connection header a client sees says what the server does next:
      "keep-alive" exactly when the loop goes round again, "close" exactly
      when it returns, and "close" exactly when the request's Connection
      header, lower-cased, is "close" (connections.go:179-184, 212-214). */
  lemma KeepAliveIffContinue(env: Env, data: string, io: Io, fs: Routes.Files)
    requires Handle(env, data, io, fs).answer.Some?
    ensures var x := Handle(env, data, io, fs);
            var m := x.answer.value.headers;
            && Request.ParseRequest(data).Parsed?
            && "Connection" in m
            && (x.stop.None? <==> m["Connection"] == "keep-alive")
            && (x.stop == Some(CloseRequested) <==> m["Connection"] == "close")
            && (m["Connection"] == "close" <==> Response.WantsClose(Request.ParseRequest(data).req.headers))
  {
    var req := Request.ParseRequest(data).req;
    var reply := Routes.Route(env.dir, req, fs, io.fault).reply;
    var r := Response.Finalize(req.headers, reply, env.gzip).value;
    Response.ResponseHeaders(req.headers, reply, |r.body|);
  }

  lemma Assoc<T>(a: seq<T>, b: seq<T>, c: seq<T>)
    ensures a + (b + c) == (a + b) + c
  {
  }

  lemma Uncons<T>(a: seq<T>, b: seq<T>)
    requires a != []
    ensures a == [a[0]] + a[1..] && a + b == [a[0]] + (a[1..] + b)
  {
  }

  /** Once the loop has stopped, later reads are never made. */
  lemma {:induction false} ServeStopped(handle: Handler, a: seq<Event>, b: seq<Event>, fs: Routes.Files)
    requires Serve(handle, a, fs).stop.Some?
    ensures Serve(handle, a + b, fs) == Serve(handle, a, fs)
    decreases |a|
  {
    Uncons(a, b);
    if a[0].Received? {
      var x := handle(a[0].data, a[0].io, fs);
      if x.stop.None? {
        ServeStopped(handle, a[1..], b, x.files);
      }
    }
  }

  /** While the loop keeps going, serving two batches of reads is serving
      the first and then the second from the files the first left. */
  lemma {:induction false} ServeAppend(handle: Handler, a: seq<Event>, b: seq<Event>, fs: Routes.Files)
    requires Serve(handle, a, fs).stop.None?
    ensures var t1 := Serve(handle, a, fs);
            var t2 := Serve(handle, b, t1.files);
            Serve(handle, a + b, fs) == Trace(t1.writes + t2.writes, t2.files, t1.answers + t2.answers, t2.stop)
    decreases |a|
  {
    if a == [] {
      assert a + b == b;
    } else {
      Uncons(a, b);
      var x := handle(a[0].data, a[0].io, fs);
      ServeAppend(handle, a[1..], b, x.files);
      var t1 := Serve(handle, a[1..], x.files);
      var t2 := Serve(handle, b, t1.files);
      Assoc(x.writes, t1.writes, t2.writes);
      Assoc(Answers(x), t1.answers, t2.answers);
    }
  }

  /** A pass that goes on hands the files it leaves to the next one. */
  lemma ServeStep(handle: Handler, e: Event, rest: seq<Event>, fs: Routes.Files)
    requires e.Received? && handle(e.data, e.io, fs).stop.None?
    ensures var x := handle(e.data, e.io, fs);
            var t := Serve(handle, rest, x.files);
            Serve(handle, [e] + rest, fs) == Trace(x.writes + t.writes, t.files, Answers(x) + t.answers, t.stop)
  {
    assert ([e] + rest)[0] == e;
    assert ([e] + rest)[1..] == rest;
  }

  /** A loop still waiting after some reads has handled the first one
      without stopping. */
  lemma ServeGoesOn(handle: Handler, events: seq<Event>, fs: Routes.Files)
    requires events != [] && Serve(handle, events, fs).stop.None?
    ensures events[0].Received? && handle(events[0].data, events[0].io, fs).stop.None?
  {
  }

  /** The handler frames every pass. */
  ghost predicate Frames(handle: Handler)
  {
    forall data, io, fs :: FramedExchange(handle(data, io, fs))
  }

  /** A loop still waiting after `events` answered every one of them. */
  lemma {:induction false} ServeAnswersAll(handle: Handler, events: seq<Event>, fs: Routes.Files)
    requires Frames(handle) && Serve(handle, events, fs).stop.None?
    ensures |Serve(handle, events, fs).answers| == |events|
    decreases |events|
  {
    if events != [] {
      ServeGoesOn(handle, events, fs);
      var x := handle(events[0].data, events[0].io, fs);
      assert FramedExchange(x);
      Uncons(events, []);
      ServeStep(handle, events[0], events[1..], fs);
      ServeAnswersAll(handle, events[1..], x.files);
    }
  }

  /** Every pass of `handle_conn` frames its output. */
  lemma ServerFrames(env: Env)
    ensures Frames(Server(env))
  {
    forall data, io, fs
      ensures FramedExchange(Server(env)(data, io, fs))
    {
      HandleFramed(env, data, io, fs);
    }
  }

  /** A response written in full, in front of a stream that reads as some
      responses, reads as that response and then those. */
  lemma FramedPrefix(x: Exchange, wire: string, ms: seq<Response.Message>)
    requires FramedExchange(x) && x.answer.Some?
    requires ReadMessages(wire) == Some(ms)
    ensures ReadMessages(Response.Concat(x.writes) + wire) == Some([x.answer.value] + ms)
  {
    assert Response.ReadResponse(Response.Concat(x.writes) + wire) == Some((x.answer.value, wire));
    ReadMessagesStep(Response.Concat(x.writes), x.answer.value, wire);
  }

  /** Unless a body write broke off half-way, the bytes a connection sends
      split into exactly the responses it completed, each framed by its
      Content-Length. */
  lemma {:induction false} ServeFramed(handle: Handler, events: seq<Event>, fs: Routes.Files)
    requires Frames(handle)
    requires Serve(handle, events, fs).stop != Some(Halted(Request.Aborted(Request.BodyWriteFailed)))
    ensures ReadMessages(Response.Concat(Serve(handle, events, fs).writes)) == Some(Serve(handle, events, fs).answers)
    decreases |events|
  {
    if events != [] && events[0].Received? {
      var x := handle(events[0].data, events[0].io, fs);
      assert FramedExchange(x);
      Uncons(events, []);
      if x.stop.Some? {
        ServeLast(handle, events[0], events[1..], fs);
        if x.answer.Some? {
          assert ReadMessages("") == Some([]);
          FramedPrefix(x, "", []);
          assert Response.Concat(x.writes) + "" == Response.Concat(x.writes);
          assert [x.answer.value] + [] == Answers(x);
        }
      } else {
        var t := Serve(handle, events[1..], x.files);
        ServeFramed(handle, events[1..], x.files);
        ConcatAppend(x.writes, t.writes);
        FramedPrefix(x, Response.Concat(t.writes), t.answers);
      }
    }
  }

  /** A pass that stops ends the loop. */
  lemma ServeLast(handle: Handler, e: Event, rest: seq<Event>, fs: Routes.Files)
    requires e.Received? && handle(e.data, e.io, fs).stop.Some?
    ensures var x := handle(e.data, e.io, fs);
            Serve(handle, [e] + rest, fs) == Trace(x.writes, x.files, Answers(x), x.stop)
  {
    assert ([e] + rest)[0] == e;
  }

  /** A request that asks to close gets its one response and nothing more,
      whatever the client sends afterwards. */
  lemma CloseAnswersOnce(env: Env, data: string, io: Io, rest: seq<Event>, fs: Routes.Files)
    requires Handle(env, data, io, fs).stop == Some(CloseRequested)
    ensures var t := Serve(Server(env), [Received(data, io)] + rest, fs);
            && t.stop == Some(CloseRequested)
            && |t.answers| == 1
            && "Connection" in t.answers[0].headers && t.answers[0].headers["Connection"] == "close"
            && ReadMessages(Response.Concat(t.writes)) == Some(t.answers)
  {
    var x := Handle(env, data, io, fs);
    KeepAliveIffContinue(env, data, io, fs);
    assert Server(env)(data, io, fs) == x;
    ServeLast(Server(env), Received(data, io), rest, fs);
    ServerFrames(env);
    ServeFramed(Server(env), [Received(data, io)] + rest, fs);
  }
}

=== FILE: fields.dfy ===
/** Header fields. Requests keep theirs in a Go map filled line by line, so a
    later line with the same name overwrites an earlier one; responses keep
    theirs in a Go map too, written out in whatever order Go's map iteration
    yields. Here a response's fields are a sequence with distinct names, and
    the iteration order is modelled as any rearrangement of that sequence. */
module Fields {
  import opened Strings

  datatype Field = Field(name: string, value: string)

  predicate DistinctNames(fs: seq<Field>)
  {
    forall i, j | 0 <= i < j < |fs| :: fs[i].name != fs[j].name
  }

  function Names(fs: seq<Field>): set<string>
  {
    set f | f in fs :: f.name
  }

  /** The field at `i` is the last one carrying its name. */
  predicate LastOfName(fs: seq<Field>, i: nat)
    requires i < |fs|
  {
    forall j | i < j < |fs| :: fs[j].name != fs[i].name
  }

  /** A field as a line of text, "name: value", without the line end. */
  function FieldLine(f: Field): string
  {
    f.name + ": " + f.value
  }

  function FieldLines(fs: seq<Field>): (ls: seq<string>)
    ensures |ls| == |fs| && forall i | 0 <= i < |fs| :: ls[i] == FieldLine(fs[i])
  {
    seq(|fs|, i requires 0 <= i < |fs| => FieldLine(fs[i]))
  }

  /** A field that survives being written as a line and read back: a name
      without ':' and nothing that could end the line. */
  predicate Sendable(f: Field)
  {
    Lacks(f.name, ':') && Lacks(f.name, '\r') && Lacks(f.value, '\r')
  }

  /** A sendable field's line splits back at its first ": ", and has no
      carriage return. */
  lemma FieldLineReads(f: Field)
    requires Sendable(f)
    ensures Cut(FieldLine(f), ": ") == Some((f.name, f.value))
    ensures FieldLine(f) != "" && Lacks(FieldLine(f), '\r')
  {
    LacksFirst(f.name, ": ");
    CutJoin(f.name, ": ", f.value);
    LacksConcat(f.name, ": ", '\r');
    LacksConcat(f.name + ": ", f.value, '\r');
  }

  /** The map left by assigning each field in turn (`m[name] = value`). */
  function Collect(acc: map<string, string>, fs: seq<Field>): (m: map<string, string>)
    decreases |fs|
  {
    if fs == [] then acc else Collect(acc[fs[0].name := fs[0].value], fs[1..])
  }

  /** The map holds the names assigned and those it started with; a name
      holds the value of its last field, or its old value when no field
      carries it. */
  lemma CollectSpec(acc: map<string, string>, fs: seq<Field>)
    ensures Collect(acc, fs).Keys == acc.Keys + Names(fs)
    ensures forall i | 0 <= i < |fs| && LastOfName(fs, i) :: Collect(acc, fs)[fs[i].name] == fs[i].value
    ensures forall k | k in acc && k !in Names(fs) :: Collect(acc, fs)[k] == acc[k]
  {
    CollectKeys(acc, fs);
    CollectLast(acc, fs);
    CollectUntouched(acc, fs);
  }

  lemma NamesCons(fs: seq<Field>)
    requires fs != []
    ensures Names(fs) == {fs[0].name} + Names(fs[1..])
  {
    assert forall f | f in fs :: f == fs[0] || f in fs[1..];
  }

  lemma {:induction false} CollectKeys(acc: map<string, string>, fs: seq<Field>)
    ensures Collect(acc, fs).Keys == acc.Keys + Names(fs)
    decreases |fs|
  {
    if fs != [] {
      CollectKeys(acc[fs[0].name := fs[0].value], fs[1..]);
      NamesCons(fs);
    }
  }

  lemma {:induction false} CollectLast(acc: map<string, string>, fs: seq<Field>)
    ensures Collect(acc, fs).Keys == acc.Keys + Names(fs)
    ensures forall i | 0 <= i < |fs| && LastOfName(fs, i) :: Collect(acc, fs)[fs[i].name] == fs[i].value
    decreases |fs|
  {
    CollectKeys(acc, fs);
    if fs != [] {
      var rest := fs[1..];
      var acc' := acc[fs[0].name := fs[0].value];
      CollectLast(acc', rest);
      NamesCons(fs);
      forall i | 0 <= i < |fs| && LastOfName(fs, i)
        ensures Collect(acc, fs)[fs[i].name] == fs[i].value
      {
        if i == 0 {
          assert fs[0].name !in Names(rest) by {
            forall g | g in rest ensures g.name != fs[0].name {
              var j :| 0 <= j < |rest| && rest[j] == g;
              assert rest[j] == fs[j + 1];
            }
          }
          CollectUntouched(acc', rest);
        } else {
          assert LastOfName(rest, i - 1) && rest[i - 1] == fs[i];
        }
      }
    }
  }

  lemma {:induction false} CollectUntouched(acc: map<string, string>, fs: seq<Field>)
    ensures Collect(acc, fs).Keys == acc.Keys + Names(fs)
    ensures forall k | k in acc && k !in Names(fs) :: Collect(acc, fs)[k] == acc[k]
    decreases |fs|
  {
    CollectKeys(acc, fs);
    if fs != [] {
      NamesCons(fs);
      CollectUntouched(acc[fs[0].name := fs[0].value], fs[1..]);
    }
  }

  /** With distinct names, every field's value is what the map holds. */
  lemma CollectDistinct(fs: seq<Field>)
    requires DistinctNames(fs)
    ensures Collect(map[], fs).Keys == Names(fs)
    ensures forall f | f in fs :: Collect(map[], fs)[f.name] == f.value
  {
    CollectSpec(map[], fs);
    forall f | f in fs
      ensures Collect(map[], fs)[f.name] == f.value
    {
      var i :| 0 <= i < |fs| && fs[i] == f;
      assert LastOfName(fs, i);
    }
  }

  /** The map view of a sequence of fields. */
  function FieldMap(fs: seq<Field>): map<string, string>
  {
    Collect(map[], fs)
  }

  /** Go's `m[name] = value` on a map kept as a sequence: the value replaces
      the one of an existing field, or a new field goes at the end. */
  function Put(fs: seq<Field>, name: string, value: string): (r: seq<Field>)
    requires DistinctNames(fs)
    ensures DistinctNames(r)
    ensures Field(name, value) in r
    ensures forall f | f in r && f.name != name :: f in fs
    ensures forall f | f in fs && f.name != name :: f in r
    decreases |fs|
  {
    if fs == [] then [Field(name, value)]
    else if fs[0].name == name then [Field(name, value)] + fs[1..]
    else [fs[0]] + Put(fs[1..], name, value)
  }

  /** Assigning a name that no later field carries commutes with the
      later assignments. */
  lemma {:induction false} CollectSkip(acc: map<string, string>, fs: seq<Field>, k: string, v: string)
    requires k !in Names(fs)
    ensures Collect(acc[k := v], fs) == Collect(acc, fs)[k := v]
    decreases |fs|
  {
    if fs != [] {
      var f := fs[0];
      assert f in fs;
      assert Names(fs[1..]) <= Names(fs) by {
        forall g | g in fs[1..] ensures g in fs { }
      }
      assert acc[k := v][f.name := f.value] == acc[f.name := f.value][k := v];
      CollectSkip(acc[f.name := f.value], fs[1..], k, v);
    }
  }

  lemma {:induction false} CollectPut(acc: map<string, string>, fs: seq<Field>, name: string, value: string)
    requires DistinctNames(fs)
    ensures Collect(acc, Put(fs, name, value)) == Collect(acc, fs)[name := value]
    decreases |fs|
  {
    if fs == [] {
      assert Put(fs, name, value)[1..] == [];
    } else {
      var rest := fs[1..];
      DistinctTail(fs);
      var r := Put(fs, name, value);
      if fs[0].name == name {
        assert r == [Field(name, value)] + rest;
        CollectCons(acc, r);
        assert r[1..] == rest;
        CollectSkip(acc, rest, name, value);
        CollectSkip(acc, rest, name, fs[0].value);
        var m := Collect(acc, rest);
        assert m[name := fs[0].value][name := value] == m[name := value];
      } else {
        assert r == [fs[0]] + Put(rest, name, value);
        CollectCons(acc, r);
        assert r[1..] == Put(rest, name, value);
        CollectPut(acc[fs[0].name := fs[0].value], rest, name, value);
      }
    }
  }

  lemma CollectCons(acc: map<string, string>, fs: seq<Field>)
    requires fs != []
    ensures Collect(acc, fs) == Collect(acc[fs[0].name := fs[0].value], fs[1..])
  {
  }

  lemma CollectPrepend(acc: map<string, string>, f: Field, rest: seq<Field>)
    ensures Collect(acc, [f] + rest) == Collect(acc[f.name := f.value], rest)
  {
    assert ([f] + rest)[1..] == rest;
  }

  /** The tail of a sequence with distinct names has distinct names, none
      of them the head's. */
  lemma DistinctTail(fs: seq<Field>)
    requires fs != [] && DistinctNames(fs)
    ensures DistinctNames(fs[1..]) && fs[0].name !in Names(fs[1..])
  {
    var rest := fs[1..];
    forall i, j | 0 <= i < j < |rest| ensures rest[i].name != rest[j].name {
      assert rest[i] == fs[i + 1] && rest[j] == fs[j + 1];
    }
    forall g | g in rest ensures g.name != fs[0].name {
      var j :| 0 <= j < |rest| && rest[j] == g;
      assert g == fs[j + 1];
    }
  }

  /** Put is map assignment. */
  lemma PutAssigns(fs: seq<Field>, name: string, value: string)
    requires DistinctNames(fs)
    ensures FieldMap(Put(fs, name, value)) == FieldMap(fs)[name := value]
  {
    CollectPut(map[], fs, name, value);
  }

  lemma {:induction false} PutSendable(fs: seq<Field>, name: string, value: string)
    requires DistinctNames(fs) && Sendable(Field(name, value))
    requires forall i | 0 <= i < |fs| :: Sendable(fs[i])
    ensures forall i | 0 <= i < |Put(fs, name, value)| :: Sendable(Put(fs, name, value)[i])
    decreases |fs|
  {
    if fs != [] && fs[0].name != name {
      PutSendable(fs[1..], name, value);
      var r := Put(fs[1..], name, value);
      assert Put(fs, name, value) == [fs[0]] + r;
      assert forall i | 1 <= i < |fs| :: fs[i] == fs[1..][i - 1];
    }
  }

  /** One transposition; indices out of range leave the sequence alone. */
  function Swap<T>(xs: seq<T>, i: nat, j: nat): (r: seq<T>)
    ensures |r| == |xs| && multiset(r) == multiset(xs)
  {
    if i < |xs| && j < |xs| then xs[i := xs[j]][j := xs[i]] else xs
  }

  /** The order Go's map iteration happens to produce: any rearrangement,
      reached by the transpositions `swaps` the environment picks. */
  function Shuffle<T>(xs: seq<T>, swaps: seq<(nat, nat)>): (r: seq<T>)
    ensures |r| == |xs| && multiset(r) == multiset(xs)
    decreases |swaps|
  {
    if swaps == [] then xs
    else Shuffle(Swap(xs, swaps[0].0, swaps[0].1), swaps[1..])
  }

  lemma {:induction false} ShuffleDistinct(fs: seq<Field>, swaps: seq<(nat, nat)>)
    requires DistinctNames(fs)
    ensures DistinctNames(Shuffle(fs, swaps))
    decreases |swaps|
  {
    if swaps != [] {
      var (i, j) := swaps[0];
      var s := Swap(fs, i, j);
      assert DistinctNames(s) by {
        if i < |fs| && j < |fs| {
          forall a, b | 0 <= a < b < |s|
            ensures s[a].name != s[b].name
          {
            var a' := if a == i then j else if a == j then i else a;
            var b' := if b == i then j else if b == j then i else b;
            assert s[a] == fs[a'] && s[b] == fs[b'];
            assert a' != b';
          }
        }
      }
      ShuffleDistinct(s, swaps[1..]);
    }
  }

  lemma SameMembers<T>(a: seq<T>, b: seq<T>)
    requires multiset(a) == multiset(b)
    ensures forall x :: x in a <==> x in b
  {
    forall x
      ensures x in a <==> x in b
    {
      assert x in a <==> x in multiset(a);
      assert x in b <==> x in multiset(b);
    }
  }

  /** Whatever order the fields are written in, a reader that assigns them
      one by one ends up with the same map. */
  lemma ShuffleCollect(fs: seq<Field>, swaps: seq<(nat, nat)>)
    requires DistinctNames(fs)
    ensures DistinctNames(Shuffle(fs, swaps))
    ensures FieldMap(Shuffle(fs, swaps)) == FieldMap(fs)
  {
    var s := Shuffle(fs, swaps);
    ShuffleDistinct(fs, swaps);
    CollectDistinct(fs);
    CollectDistinct(s);
    SameMembers(s, fs);
    var m := FieldMap(s);
    var m' := FieldMap(fs);
    assert m.Keys == m'.Keys;
    forall k | k in m
      ensures m[k] == m'[k]
    {
      var f :| f in s && f.name == k;
      assert f in fs;
    }
  }
}

=== FILE: filepath.dfy ===
/** The lexical part of Go's `path/filepath` on a '/'-separated system:
    `Clean` (the Plan 9 "dot-dot" rules), `Join` and `Rel`. None of them looks
    at the filesystem.

    A path is read as a `PathForm`: whether it starts at the root, and its
    list of elements. `Clean` resolves the elements with a stack: empty and
    "." elements vanish, ".." removes the element before it, is dropped at
    the root, and is kept when a relative path has nothing left to remove. */
module FilePath {
  import opened Strings

  datatype PathForm = PathForm(rooted: bool, elems: seq<string>)

  /** An element a clean path can hold. */
  predicate IsName(e: string)
  {
    e != "" && e != "." && !Contains(e, "/")
  }

  /** The shape of a clean path: only names, no ".." under the root, and
      ".." only as a leading run. */
  predicate Canonical(f: PathForm)
  {
    && (forall i | 0 <= i < |f.elems| :: IsName(f.elems[i]))
    && (f.rooted ==> forall i | 0 <= i < |f.elems| :: f.elems[i] != "..")
    && (forall i, j | 0 <= i < j < |f.elems| :: f.elems[j] == ".." ==> f.elems[i] == "..")
  }

  predicate NoSlash(es: seq<string>)
  {
    forall i | 0 <= i < |es| :: !Contains(es[i], "/")
  }

  /** One element of the input applied to the stack of kept elements. */
  function Step(stack: seq<string>, rooted: bool, e: string): (r: seq<string>)
    requires Canonical(PathForm(rooted, stack)) && !Contains(e, "/")
    ensures Canonical(PathForm(rooted, r))
  {
    if e == "" || e == "." then stack
    else if e == ".." then
      if |stack| > 0 && stack[|stack| - 1] != ".." then stack[..|stack| - 1]
      else if rooted then stack
      else stack + [".."]
    else stack + [e]
  }

  function Resolve(stack: seq<string>, rooted: bool, es: seq<string>): (r: seq<string>)
    requires Canonical(PathForm(rooted, stack)) && NoSlash(es)
    ensures Canonical(PathForm(rooted, r))
    decreases |es|
  {
    if es == [] then stack
    else Resolve(Step(stack, rooted, es[0]), rooted, es[1..])
  }

  /** The form `Clean` gives a path. */
  function Lex(p: string): (f: PathForm)
    ensures Canonical(f)
    ensures f.rooted <==> HasPrefix(p, "/")
  {
    var rooted := |p| > 0 && p[0] == '/';
    PathForm(rooted, Resolve([], rooted, Split(p, "/")))
  }

  function Render(f: PathForm): string
  {
    if f.rooted then "/" + Join(f.elems, "/")
    else if f.elems == [] then "."
    else Join(f.elems, "/")
  }

  /** filepath.Clean: the shortest spelling of the same path. */
  function Clean(p: string): (r: string)
    ensures Lex(r) == Lex(p)
  {
    LexRender(Lex(p));
    Render(Lex(p))
  }

  // ---------------------------------------------------------------------
  // Clean is idempotent: a clean path reads back as its own form.

  lemma {:induction false} ResolveCanonical(stack: seq<string>, rooted: bool, es: seq<string>)
    requires NoSlash(es) && Canonical(PathForm(rooted, stack))
    requires Canonical(PathForm(rooted, stack + es))
    ensures Resolve(stack, rooted, es) == stack + es
    decreases |es|
  {
    if es == [] {
      assert stack + es == stack;
    } else {
      var e := es[0];
      var all := stack + es;
      assert all[|stack|] == e;
      assert IsName(e);
      if e == ".." {
        forall i | 0 <= i < |stack|
          ensures stack[i] == ".."
        {
          assert all[i] == stack[i];
        }
      }
      assert Step(stack, rooted, e) == stack + [e];
      assert stack + [e] + es[1..] == all;
      assert Canonical(PathForm(rooted, stack + [e])) by {
        assert forall i | 0 <= i <= |stack| :: (stack + [e])[i] == all[i];
      }
      ResolveCanonical(stack + [e], rooted, es[1..]);
    }
  }

  lemma NameNotRooted(e: string)
    requires IsName(e)
    ensures e[0] != '/'
  {
    assert !OccursAt(e, "/", 0);
    assert e[0..1] == [e[0]];
  }

  lemma OneCharNoSlash(c: char)
    requires c != '/'
    ensures !Contains([c], "/")
  {
    assert [c][0..1] == [c];
    assert !OccursAt([c], "/", 0);
    assert !OccursAt([c], "/", 1);
  }

  lemma NamesNoSlash(es: seq<string>)
    requires forall i | 0 <= i < |es| :: IsName(es[i])
    ensures NoSlash(es)
  {
  }

  lemma LexRenderRooted(E: seq<string>)
    requires Canonical(PathForm(true, E))
    ensures Lex(Render(PathForm(true, E))) == PathForm(true, E)
  {
    if E == [] {
      LexRoot();
    } else {
      LexRenderRootedNames(E);
    }
  }

  lemma LexRoot()
    ensures Render(PathForm(true, [])) == "/"
    ensures Lex("/") == PathForm(true, [])
  {
    assert Render(PathForm(true, [])) == "/" + "";
    assert !Contains("", "/");
    var parts := ["", ""];
    assert parts[1..] == [""];
    assert Join(parts, "/") == "" + "/" + "";
    SplitJoin(parts, "/");
    assert "/"[0] == '/';
    assert Resolve([], true, parts) == Resolve([], true, [""]);
    assert Resolve([], true, [""]) == Resolve([], true, []);
  }

  lemma LexRenderRootedNames(E: seq<string>)
    requires E != [] && Canonical(PathForm(true, E))
    ensures Lex(Render(PathForm(true, E))) == PathForm(true, E)
  {
    var p := Render(PathForm(true, E));
    NamesNoSlash(E);
    assert !Contains("", "/");
    var parts := [""] + E;
    assert parts[1..] == E;
    assert Join(parts, "/") == "" + "/" + Join(E, "/");
    assert p == "/" + Join(E, "/");
    SplitJoin(parts, "/");
    assert p[0] == '/';
    ResolveCanonical([], true, E);
    assert Resolve([], true, parts) == Resolve([], true, E);
  }

  lemma {:induction false} LexRenderRelative(E: seq<string>)
    requires Canonical(PathForm(false, E))
    ensures Lex(Render(PathForm(false, E))) == PathForm(false, E)
  {
    var p := Render(PathForm(false, E));
    if E == [] {
      assert p == ".";
      OneCharNoSlash('.');
      SplitJoin(["."], "/");
      assert Split(p, "/") == ["."];
      assert Resolve([], false, ["."]) == Resolve([], false, []);
    } else {
      NamesNoSlash(E);
      NameNotRooted(E[0]);
      JoinStartsWithFirst(E);
      SplitJoin(E, "/");
      ResolveCanonical([], false, E);
    }
  }

  lemma JoinStartsWithFirst(es: seq<string>)
    requires |es| >= 1 && es[0] != ""
    ensures Join(es, "/") != "" && Join(es, "/")[0] == es[0][0]
  {
  }

  /** Reading a clean path back gives the form it was rendered from. */
  lemma LexRender(f: PathForm)
    requires Canonical(f)
    ensures Lex(Render(f)) == f
  {
    if f.rooted {
      LexRenderRooted(f.elems);
    } else {
      LexRenderRelative(f.elems);
    }
  }

  /** Cleaning twice is cleaning once; a cleaned path names the same form. */
  lemma CleanIdempotent(p: string)
    ensures Lex(Clean(p)) == Lex(p)
    ensures Clean(Clean(p)) == Clean(p)
  {
    LexRender(Lex(p));
  }

  /** Two clean paths are the same string exactly when they are the same form. */
  lemma RenderInjective(f: PathForm, g: PathForm)
    requires Canonical(f) && Canonical(g)
    ensures Render(f) == Render(g) <==> f == g
  {
    if Render(f) == Render(g) {
      LexRender(f);
      LexRender(g);
    }
  }

  // ---------------------------------------------------------------------
  // Join and Rel

  /** `k` is the first element of `elems` that is not empty. */
  predicate FirstNonEmpty(elems: seq<string>, k: nat)
  {
    k < |elems| && elems[k] != "" && forall i | 0 <= i < k :: elems[i] == ""
  }

  /** filepath.Join: leading empty elements are skipped, the rest are joined
      with "/" and cleaned; all-empty input gives "". */
  function JoinPath(elems: seq<string>): (r: string)
    ensures r == "" <==> forall i | 0 <= i < |elems| :: elems[i] == ""
    ensures r != "" ==> Clean(r) == r
    ensures forall k: nat | FirstNonEmpty(elems, k) :: Lex(r) == Lex(Join(elems[k..], "/"))
    decreases |elems|
  {
    if elems == [] then ""
    else if elems[0] != "" then
      CleanIdempotent(Join(elems, "/"));
      assert forall k: nat | FirstNonEmpty(elems, k) :: k == 0;
      Clean(Join(elems, "/"))
    else
      var r := JoinPath(elems[1..]);
      forall k: nat | FirstNonEmpty(elems, k) ensures Lex(r) == Lex(Join(elems[k..], "/")) {
        assert k >= 1 && FirstNonEmpty(elems[1..], k - 1);
        assert elems[1..][k - 1..] == elems[k..];
      }
      r
  }

  function Repeat(e: string, n: nat): (r: seq<string>)
    ensures |r| == n && forall i | 0 <= i < n :: r[i] == e
  {
    if n == 0 then [] else [e] + Repeat(e, n - 1)
  }

  /** The length of the longest common prefix of two element lists. */
  function CommonPrefix(a: seq<string>, b: seq<string>): (k: nat)
    ensures k <= |a| && k <= |b| && a[..k] == b[..k]
    ensures k < |a| && k < |b| ==> a[k] != b[k]
  {
    if a == [] || b == [] || a[0] != b[0] then 0
    else
      var k := 1 + CommonPrefix(a[1..], b[1..]);
      assert a[..k] == [a[0]] + a[1..][..k - 1];
      assert b[..k] == [b[0]] + b[1..][..k - 1];
      k
  }

  /** filepath.Rel: the path that leads from `basepath` to `targpath`, or None
      when there is none (one rooted and the other not, or a ".." left in the
      base that cannot be walked back). Both are cleaned first; a base of "."
      has no elements, while a target of "." keeps "." as its one element,
      which is how Go's byte loop treats the two. */
  function Rel(basepath: string, targpath: string): Option<string>
  {
    RelForms(Lex(basepath), Lex(targpath))
  }

  /** Rel on the cleaned forms of its two arguments. */
  function RelForms(base: PathForm, targ: PathForm): Option<string>
  {
    if Render(base) == Render(targ) then Some(".")
    else if base.rooted != targ.rooted then None
    else
      var bs := base.elems;
      var ts := if targ.rooted || targ.elems != [] then targ.elems else ["."];
      var k := CommonPrefix(bs, ts);
      if k < |bs| && bs[k] == ".." then None
      else if k < |bs| then Some(Join(Repeat("..", |bs| - k) + ts[k..], "/"))
      else Some(Join(ts[k..], "/"))
  }

  // ---------------------------------------------------------------------
  // The upload guard: Rel, then a string-prefix test on "..".

  /** What connections.go:119 rejects: Rel failed, or its answer starts with
      the two characters "..". */
  predicate Escapes(rel: Option<string>)
  {
    rel.None? || HasPrefix(rel.value, "..")
  }

  /** `t` is `root` itself, or `root` followed by further elements none of
      which is "..": lexically, `t` lies in the tree rooted at `root`. */
  predicate Within(root: PathForm, t: PathForm)
  {
    && t.rooted == root.rooted
    && |root.elems| <= |t.elems|
    && t.elems[..|root.elems|] == root.elems
    && forall i | |root.elems| <= i < |t.elems| :: t.elems[i] != ".."
  }

  /** Exactly the forms the guard lets through, relative to the directory:
      the directory itself, or a form below it whose first element past the
      directory does not begin with "..". */
  predicate Admitted(d: PathForm, t: PathForm)
  {
    || d == t
    || (&& d.rooted == t.rooted
        && |d.elems| < |t.elems|
        && t.elems[..|d.elems|] == d.elems
        && !HasPrefix(t.elems[|d.elems|], ".."))
  }

  lemma JoinHasPrefixDotDot(es: seq<string>)
    requires |es| >= 1 && IsName(es[0])
    ensures HasPrefix(Join(es, "/"), "..") <==> HasPrefix(es[0], "..")
  {
    var j := Join(es, "/");
    if |es| > 1 {
      assert j == es[0] + "/" + Join(es[1..], "/");
      if |es[0]| == 1 {
        assert es[0] == [es[0][0]];
        assert j[0] == es[0][0];
      } else {
        assert j[..2] == es[0][..2];
      }
    }
  }

  lemma RepeatJoinHasPrefixDotDot(n: nat, rest: seq<string>)
    requires n >= 1
    ensures HasPrefix(Join(Repeat("..", n) + rest, "/"), "..")
  {
    var es := Repeat("..", n) + rest;
    assert es[0] == "..";
    if |es| > 1 {
      assert Join(es, "/") == ".." + "/" + Join(es[1..], "/");
    }
  }

  /** Rel's result when the directory has elements the target does not
      share: it must climb out with "..", so the guard rejects it. */
  lemma {:induction false} RelGuardClimbs(d: PathForm, t: PathForm, ts: seq<string>, k: nat)
    requires Canonical(d) && Canonical(t) && d.rooted == t.rooted
    requires ts == (if t.rooted || t.elems != [] then t.elems else ["."])
    requires k == CommonPrefix(d.elems, ts) && k < |d.elems|
    ensures d.elems[k] != ".." ==> HasPrefix(Join(Repeat("..", |d.elems| - k) + ts[k..], "/"), "..")
    ensures !Admitted(d, t)
  {
    var bs := d.elems;
    if bs[k] != ".." {
      RepeatJoinHasPrefixDotDot(|bs| - k, ts[k..]);
    }
    if t.rooted || t.elems != [] {
      assert ts == t.elems;
      assert d != t;
      assert |bs| < |t.elems| ==> t.elems[..|bs|][k] == t.elems[k];
    } else {
      assert |t.elems| == 0;
      assert d != t;
    }
  }

  /** Rel's result when the target extends the directory: the rest of the
      target, which the guard accepts unless it starts with "..". */
  lemma {:induction false} RelGuardDescends(d: PathForm, t: PathForm, k: nat)
    requires Canonical(d) && Canonical(t) && d.rooted == t.rooted && d != t
    requires t.rooted || t.elems != []
    requires k == CommonPrefix(d.elems, t.elems) && k == |d.elems|
    ensures k < |t.elems|
    ensures HasPrefix(Join(t.elems[k..], "/"), "..") <==> !Admitted(d, t)
  {
    var ts := t.elems;
    assert d.elems == ts[..k];
    assert k < |ts| by {
      assert k == |ts| ==> d.elems == ts;
    }
    assert IsName(ts[k]);
    JoinHasPrefixDotDot(ts[k..]);
  }

  /** The guard at connections.go:118-119 admits a target exactly when its
      cleaned form is the directory or lies below it with a first element
      that does not begin with "..". */
  lemma RelGuard(dir: string, target: string)
    ensures !Escapes(Rel(dir, target)) <==> Admitted(Lex(dir), Lex(target))
  {
    RelFormsGuard(Lex(dir), Lex(target));
  }

  lemma RelFormsGuard(d: PathForm, t: PathForm)
    requires Canonical(d) && Canonical(t)
    ensures !Escapes(RelForms(d, t)) <==> Admitted(d, t)
  {
    RenderInjective(d, t);
    if Render(d) != Render(t) && d.rooted == t.rooted {
      var ts := if t.rooted || t.elems != [] then t.elems else ["."];
      var k := CommonPrefix(d.elems, ts);
      if !(t.rooted || t.elems != []) {
        assert d.elems != [];
        assert IsName(d.elems[0]);
        assert k < |d.elems|;
        RelGuardClimbs(d, t, ts, k);
      } else if k < |d.elems| {
        RelGuardClimbs(d, t, ts, k);
      } else {
        RelGuardDescends(d, t, k);
      }
    }
  }

  /** Whatever the guard admits lies lexically under the directory. */
  lemma AdmittedWithin(d: PathForm, t: PathForm)
    requires Canonical(t) && Admitted(d, t)
    ensures Within(d, t)
  {
    if d != t {
      var n := |d.elems|;
      assert t.elems[n] != "..";
      forall i | n < i < |t.elems|
        ensures t.elems[i] != ".."
      {
        var first := t.elems[n];
        assert t.elems[i] == ".." ==> first == "..";
      }
    }
  }

  /** The containment property of the upload guard: if Rel(dir, target) does
      not escape, the cleaned target is the directory or lies under it. */
  lemma GuardKeepsUnderDir(dir: string, target: string)
    requires !Escapes(Rel(dir, target))
    ensures Within(Lex(dir), Lex(target))
    ensures Within(Lex(dir), Lex(Clean(target)))
  {
    RelGuard(dir, target);
    AdmittedWithin(Lex(dir), Lex(target));
    CleanIdempotent(target);
  }

  // ---------------------------------------------------------------------
  // Appending a path to a directory with "/", as a GET does.

  /** Splitting on "/" distributes over a "/". */
  lemma SplitSlash(a: string, b: string)
    ensures Split(a + "/" + b, "/") == Split(a, "/") + Split(b, "/")
  {
    SlashSelfOverlapFree();
    SplitAppend(a, b, "/");
  }

  /** Resolving a list is resolving its halves in turn. */
  lemma {:induction false} ResolveAppend(stack: seq<string>, rooted: bool, xs: seq<string>, ys: seq<string>)
    requires Canonical(PathForm(rooted, stack)) && NoSlash(xs) && NoSlash(ys)
    ensures NoSlash(xs + ys)
    ensures Resolve(stack, rooted, xs + ys) == Resolve(Resolve(stack, rooted, xs), rooted, ys)
    decreases |xs|
  {
    assert forall i | 0 <= i < |xs + ys| :: (xs + ys)[i] == if i < |xs| then xs[i] else ys[i - |xs|];
    if xs != [] {
      assert (xs + ys)[1..] == xs[1..] + ys;
      ResolveAppend(Step(stack, rooted, xs[0]), rooted, xs[1..], ys);
    } else {
      assert xs + ys == ys;
    }
  }

  /** `a + "/" + b` read as a form: the form of `a`, with the pieces of `b`
      resolved on top of it. */
  lemma LexAppend(a: string, b: string)
    requires a != ""
    ensures Lex(a + "/" + b) == PathForm(Lex(a).rooted, Resolve(Lex(a).elems, Lex(a).rooted, Split(b, "/")))
  {
    var rooted := Lex(a).rooted;
    assert (a + "/" + b)[0] == a[0];
    SplitSlash(a, b);
    ResolveAppend([], rooted, Split(a, "/"), Split(b, "/"));
  }

  /** The pieces of a clean path: its elements, after an empty piece when
      it is rooted; "/" gives two empty pieces and "." the piece ".". */
  lemma SplitClean(name: string)
    ensures var f := Lex(name);
            Split(Clean(name), "/") ==
              if f.rooted then (if f.elems == [] then ["", ""] else [""] + f.elems)
              else if f.elems == [] then ["."] else f.elems
  {
    var f := Lex(name);
    var E := f.elems;
    NamesNoSlash(E);
    if f.rooted {
      assert !Contains("", "/");
      var ps := if E == [] then ["", ""] else [""] + E;
      assert ps[1..] == (if E == [] then [""] else E);
      assert Join(ps, "/") == Clean(name);
      SplitJoin(ps, "/");
    } else if E == [] {
      OneCharNoSlash('.');
      SplitJoin(["."], "/");
    } else {
      SplitJoin(E, "/");
    }
  }

  /** A clean path without "..", resolved on top of a stack, adds its
      elements to the stack. */
  lemma ResolveClimbFree(stack: seq<string>, rooted: bool, name: string)
    requires Canonical(PathForm(rooted, stack))
    requires forall i | 0 <= i < |Lex(name).elems| :: Lex(name).elems[i] != ".."
    ensures Resolve(stack, rooted, Split(Clean(name), "/")) == stack + Lex(name).elems
  {
    var f := Lex(name);
    var E := f.elems;
    NamesNoSlash(E);
    ExtendCanonical(stack, rooted, E);
    ResolveCanonical(stack, rooted, E);
    SplitClean(name);
    var parts := Split(Clean(name), "/");
    if f.rooted {
      ResolveSkip(stack, rooted, parts);
      if E == [] {
        ResolveSkip(stack, rooted, parts[1..]);
        assert parts[1..][1..] == [];
      } else {
        assert parts[1..] == E;
      }
    } else if E == [] {
      ResolveSkip(stack, rooted, parts);
      assert parts[1..] == [];
    }
  }

  /** Names without ".." can be pushed on any clean stack. */
  lemma ExtendCanonical(stack: seq<string>, rooted: bool, E: seq<string>)
    requires Canonical(PathForm(rooted, stack)) && Canonical(PathForm(false, E))
    requires forall i | 0 <= i < |E| :: E[i] != ".."
    ensures Canonical(PathForm(rooted, stack + E))
  {
    assert forall i | 0 <= i < |stack + E| :: (stack + E)[i] == if i < |stack| then stack[i] else E[i - |stack|];
  }

  /** An empty or "." piece leaves the stack alone. */
  lemma ResolveSkip(stack: seq<string>, rooted: bool, es: seq<string>)
    requires Canonical(PathForm(rooted, stack)) && NoSlash(es)
    requires |es| > 0 && (es[0] == "" || es[0] == ".")
    ensures Resolve(stack, rooted, es) == Resolve(stack, rooted, es[1..])
  {
  }
}

=== FILE: percent.dfy ===
/** Percent-decoding of one path segment, as `url.PathUnescape` does it
    (section 2.1 of RFC 3986): "%" followed by two hexadecimal digits stands
    for the byte they spell, every other byte stands for itself, and '+' is
    NOT turned into a space. A '%' without two hexadecimal digits after it
    makes the whole segment undecodable. */
module Percent {
  import opened Strings

  predicate IsHex(c: char)
  {
    '0' <= c <= '9' || 'a' <= c <= 'f' || 'A' <= c <= 'F'
  }

  function HexValue(c: char): (v: nat)
    requires IsHex(c)
    ensures v < 16
  {
    if '0' <= c <= '9' then c as int - '0' as int
    else if 'a' <= c <= 'f' then c as int - 'a' as int + 10
    else c as int - 'A' as int + 10
  }

  /** The upper-case hexadecimal digit for `v`. */
  function HexDigit(v: nat): (c: char)
    requires v < 16
    ensures IsHex(c) && HexValue(c) == v
  {
    if v < 10 then ('0' as int + v) as char else ('A' as int + v - 10) as char
  }

  /** The '%' at `i` is not followed by two hexadecimal digits. */
  predicate BadEscapeAt(s: string, i: nat)
  {
    i < |s| && s[i] == '%' && !(i + 2 < |s| && IsHex(s[i + 1]) && IsHex(s[i + 2]))
  }

  /** url.PathUnescape: None is the EscapeError the server gives up on. */
  function Unescape(s: string): (r: Option<string>)
    ensures r.Some? ==> |r.value| <= |s|
    ensures '%' !in s ==> r == Some(s)
    decreases |s|
  {
    if s == [] then Some([])
    else if s[0] == '%' then
      if |s| >= 3 && IsHex(s[1]) && IsHex(s[2]) then
        match Unescape(s[3..])
        case None => None
        case Some(t) => Some([(HexValue(s[1]) * 16 + HexValue(s[2])) as char] + t)
      else None
    else
      assert s == [s[0]] + s[1..];
      match Unescape(s[1..])
      case None => None
      case Some(t) => Some([s[0]] + t)
  }

  /** Decoding fails exactly when some '%' lacks its two hexadecimal digits. */
  lemma {:induction false} UnescapeFails(s: string)
    ensures Unescape(s).None? <==> exists i: nat :: BadEscapeAt(s, i)
    decreases |s|
  {
    if s == [] {
    } else if s[0] == '%' {
      if |s| >= 3 && IsHex(s[1]) && IsHex(s[2]) {
        var t := s[3..];
        UnescapeFails(t);
        if Unescape(t).None? {
          var i: nat :| BadEscapeAt(t, i);
          assert BadEscapeAt(s, i + 3);
        } else {
          forall i: nat | BadEscapeAt(s, i)
            ensures false
          {
            assert i >= 3;
            assert BadEscapeAt(t, i - 3);
          }
        }
      } else {
        assert BadEscapeAt(s, 0);
      }
    } else {
      var t := s[1..];
      UnescapeFails(t);
      if Unescape(t).None? {
        var i: nat :| BadEscapeAt(t, i);
        assert BadEscapeAt(s, i + 1);
      } else {
        forall i: nat | BadEscapeAt(s, i)
          ensures false
        {
          assert i >= 1;
          assert BadEscapeAt(t, i - 1);
        }
      }
    }
  }

  predicate IsByteString(s: string)
  {
    forall i | 0 <= i < |s| :: s[i] as int < 256
  }

  /** Percent-encodes every byte, the most cautious encoding section 2.1 of
      RFC 3986 allows; in particular '/', ' ', '%' and CR/LF never appear in
      the result unencoded. */
  function EscapeAll(s: string): (e: string)
    requires IsByteString(s)
    ensures |e| == 3 * |s|
    ensures forall i | 0 <= i < |e| :: e[i] == '%' || IsHex(e[i])
  {
    if s == [] then []
    else
      var b := s[0] as int;
      ['%', HexDigit(b / 16), HexDigit(b % 16)] + EscapeAll(s[1..])
  }

  /** Decoding an encoded byte string gives back the bytes. */
  lemma {:induction false} UnescapeEscapeAll(s: string)
    requires IsByteString(s)
    ensures Unescape(EscapeAll(s)) == Some(s)
    decreases |s|
  {
    if s != [] {
      var e := EscapeAll(s);
      var b := s[0] as int;
      assert e[3..] == EscapeAll(s[1..]);
      UnescapeEscapeAll(s[1..]);
      assert HexValue(e[1]) * 16 + HexValue(e[2]) == b;
      assert [s[0]] + s[1..] == s;
    }
  }

  /** A segment without '%' is its own decoding. */
  lemma {:induction false} UnescapePlain(s: string)
    requires forall i | 0 <= i < |s| :: s[i] != '%'
    ensures Unescape(s) == Some(s)
    decreases |s|
  {
    if s != [] {
      UnescapePlain(s[1..]);
      assert [s[0]] + s[1..] == s;
    }
  }
}

=== FILE: request.dfy ===
/** Parsing one request, as `handle_conn` does it in server/connections.go
    lines 33-64: the text read is split on CRLF; the first line is the
    start-line; the lines after it up to the first empty one are headers,
    each split at its first ": "; the body is a slice of the remaining lines;
    the start-line's second space-separated token is the path, split on '/'
    and percent-decoded segment by segment.

    The ways the handler stops early are kept apart: a `return` (the
    connection is closed, nothing is sent) and an index out of range (a Go
    panic; the deferred close still runs, and an unrecovered panic in a
    goroutine ends the whole process). */
module Request {
  import opened Strings
  import opened Fields
  import Percent

  /** The `return` statements of `handle_conn` that end a connection. */
  datatype Abort =
    | MalformedHeader(line: string)   // connections.go:46-48
    | BadEscape(segment: string)      // connections.go:60-62
    | CompressionFailed               // connections.go:166-173
    | HeadWriteFailed                 // connections.go:200-203
    | BodyWriteFailed                 // connections.go:207-210

  /** The slice indexing that panics when the element is missing. */
  datatype PanicSite =
    | StartLineToken1   // start_line[1], connections.go:55
    | PathSegment(index: nat)   // path_parts[1] at :78, path_parts[2] at :87 and :103

  datatype Halt = Aborted(reason: Abort) | Panicked(site: PanicSite)

  datatype Request = Request(
    verb: string,
    target: string,
    path: seq<string>,
    headers: map<string, string>,
    body: seq<string>)

  datatype Parse = Parsed(req: Request) | Halted(halt: Halt)

  /** The outcome of the header loop: the map, and the value the loop
      variable `i` is left holding (connections.go:39-51). */
  datatype Scan = Scanned(headers: map<string, string>, last: nat) | BadLine(line: string)

  /** The header loop over `ls` (= lines[1:]) from index `j`, with the map
      `acc` built so far. It stops at the first empty line, leaving `i` on it;
      if there is none, `i` stays on the last index visited (0 if none). */
  function ScanHeaders(ls: seq<string>, j: nat, acc: map<string, string>): (r: Scan)
    requires j <= |ls|
    ensures r.Scanned? ==> r.last <= (if |ls| == 0 then 0 else |ls| - 1)
    ensures r.Scanned? && j == |ls| ==> r.last == (if j == 0 then 0 else j - 1)
    ensures r.Scanned? && j < |ls| ==> j <= r.last && (ls[r.last] == "" || r.last == |ls| - 1)
    ensures r.Scanned? ==> forall i | j <= i < r.last :: ls[i] != ""
    decreases |ls| - j
  {
    if j == |ls| then Scanned(acc, if j == 0 then 0 else j - 1)
    else if ls[j] == "" then Scanned(acc, j)
    else
      match FieldOf(ls[j])
      case None => BadLine(ls[j])
      case Some(f) => ScanHeaders(ls, j + 1, acc[f.name := f.value])
  }

  /** url.PathUnescape applied to every segment; the first segment that
      does not decode is reported. */
  datatype Decoding = Decoded(parts: seq<string>) | Undecodable(segment: string)

  function DecodeSegments(segs: seq<string>): (r: Decoding)
    ensures r.Decoded? <==> forall i | 0 <= i < |segs| :: Percent.Unescape(segs[i]).Some?
    ensures r.Decoded? ==> |r.parts| == |segs|
    ensures r.Decoded? ==> forall i | 0 <= i < |segs| :: Some(r.parts[i]) == Percent.Unescape(segs[i])
    ensures r.Undecodable? ==> r.segment in segs && Percent.Unescape(r.segment).None?
    decreases |segs|
  {
    if segs == [] then Decoded([])
    else
      match Percent.Unescape(segs[0])
      case None => Undecodable(segs[0])
      case Some(p) =>
        match DecodeSegments(segs[1..])
        case Undecodable(s) => Undecodable(s)
        case Decoded(ps) =>
          assert forall i | 1 <= i < |segs| :: segs[i] == segs[1..][i - 1];
          Decoded([p] + ps)
  }

  /** connections.go:33-64, from the text read to a request. */
  function ParseRequest(raw: string): (p: Parse)
    ensures p.Parsed? ==> |p.req.path| >= 1 && Join(Split(p.req.target, "/"), "/") == p.req.target
    ensures p.Parsed? ==> forall i | 0 <= i < |p.req.body| :: p.req.body[i] in Split(raw, CRLF)
  {
    ParseLines(Split(raw, CRLF))
  }

  /** The same, from the CRLF-separated lines. */
  function ParseLines(lines: seq<string>): (p: Parse)
    requires |lines| >= 1
    ensures p.Parsed? ==> |p.req.path| >= 1
    ensures p.Parsed? ==> forall i | 0 <= i < |p.req.body| :: p.req.body[i] in lines
  {
    match ScanHeaders(lines[1..], 0, map[])
    case BadLine(line) => Halted(Aborted(MalformedHeader(line)))
    case Scanned(headers, i) =>
      var body := lines[i + 1..];
      var start := Split(lines[0], " ");
      if |start| < 2 then Halted(Panicked(StartLineToken1))
      else
        match DecodeSegments(Split(start[1], "/"))
        case Undecodable(segment) => Halted(Aborted(BadEscape(segment)))
        case Decoded(parts) => Parsed(Request(start[0], start[1], parts, headers, body))
  }

  // ---------------------------------------------------------------------
  // The header block, defined independently of the loop.

  /** The index of the first empty string in `ls`, if any. */
  function FirstEmpty(ls: seq<string>): (r: Option<nat>)
    ensures r.Some? ==> r.value < |ls| && ls[r.value] == ""
    ensures r.Some? ==> forall i | 0 <= i < r.value :: ls[i] != ""
    ensures r.None? ==> forall i | 0 <= i < |ls| :: ls[i] != ""
    decreases |ls|
  {
    if ls == [] then None
    else if ls[0] == "" then Some(0)
    else
      match FirstEmpty(ls[1..])
      case None => None
      case Some(k) => Some(k + 1)
  }

  /** The header lines: those before the first empty line. */
  function HeaderBlock(ls: seq<string>): (block: seq<string>)
    ensures |block| <= |ls| && block == ls[..|block|]
    ensures forall i | 0 <= i < |block| :: block[i] != ""
    ensures |block| < |ls| ==> ls[|block|] == ""
  {
    match FirstEmpty(ls)
    case None => ls
    case Some(k) => ls[..k]
  }

  /** A line read as a field, if it holds ": ". */
  function FieldOf(line: string): Option<Field>
  {
    match Cut(line, ": ")
    case None => None
    case Some((name, value)) => Some(Field(name, value))
  }

  predicate AllFields(lines: seq<string>)
  {
    forall i | 0 <= i < |lines| :: FieldOf(lines[i]).Some?
  }

  function FieldsOf(lines: seq<string>): (fs: seq<Field>)
    requires AllFields(lines)
    ensures |fs| == |lines|
    ensures forall i | 0 <= i < |lines| :: Some(fs[i]) == FieldOf(lines[i])
  {
    seq(|lines|, i requires 0 <= i < |lines| => FieldOf(lines[i]).value)
  }

  /** One turn of the header loop on a line that reads as a field. */
  lemma ScanStep(ls: seq<string>, j: nat, acc: map<string, string>)
    requires j < |ls| && ls[j] != ""
    ensures FieldOf(ls[j]).None? ==> ScanHeaders(ls, j, acc) == BadLine(ls[j])
    ensures FieldOf(ls[j]).Some? ==>
              var f := FieldOf(ls[j]).value;
              ScanHeaders(ls, j, acc) == ScanHeaders(ls, j + 1, acc[f.name := f.value])
  {
  }

  /** The header loop fails exactly when the header block has a line
      without ": " (which line it reports: `ScanReportsFirst`). */
  lemma {:induction false} ScanFails(ls: seq<string>, j: nat, acc: map<string, string>)
    requires j <= |ls|
    requires forall i | 0 <= i < j :: ls[i] != ""
    ensures var block := HeaderBlock(ls);
            ScanHeaders(ls, j, acc).BadLine? <==> exists i | j <= i < |block| :: FieldOf(block[i]).None?
    decreases |ls| - j
  {
    var block := HeaderBlock(ls);
    if j == |ls| || ls[j] == "" {
      assert forall i | 0 <= i < |block| :: ls[i] == block[i] != "";
    } else {
      assert j < |block| && block[j] == ls[j];
      match FieldOf(ls[j])
      case None =>
        assert FieldOf(block[j]).None?;
      case Some(f) =>
        ScanStep(ls, j, acc);
        ScanFails(ls, j + 1, acc[f.name := f.value]);
        forall i | j <= i < |block| && FieldOf(block[i]).None?
          ensures j + 1 <= i
        {
        }
    }
  }

  /** The line a failing header loop reports is the first header-block
      line without ": ". */
  lemma {:induction false} ScanReportsFirst(ls: seq<string>, j: nat, acc: map<string, string>)
    requires j <= |ls|
    requires forall i | 0 <= i < j :: ls[i] != ""
    requires ScanHeaders(ls, j, acc).BadLine?
    ensures ReportsFirstBad(ls, j, ScanHeaders(ls, j, acc).line)
    decreases |ls| - j
  {
    if j == |ls| || ls[j] == "" {
      ScanStops(ls, j, acc);
      assert false;
    }
    ScanStep(ls, j, acc);
    match FieldOf(ls[j])
    case None =>
      ReportsHere(ls, j);
    case Some(f) =>
      ScanReportsFirst(ls, j + 1, acc[f.name := f.value]);
      ReportsLater(ls, j, ScanHeaders(ls, j, acc).line);
  }

  /** `line` is the first line of the header block, from index `j` on,
      that does not read as a field. */
  predicate ReportsFirstBad(ls: seq<string>, j: nat, line: string)
  {
    var block := HeaderBlock(ls);
    exists i | j <= i < |block| ::
      && block[i] == line
      && FieldOf(block[i]).None?
      && forall k | j <= k < i :: FieldOf(block[k]).Some?
  }

  lemma ScanStops(ls: seq<string>, j: nat, acc: map<string, string>)
    requires j <= |ls| && (j == |ls| || ls[j] == "")
    ensures ScanHeaders(ls, j, acc).Scanned?
  {
  }

  lemma ReportsHere(ls: seq<string>, j: nat)
    requires j < |ls| && forall i | 0 <= i <= j :: ls[i] != ""
    requires FieldOf(ls[j]).None?
    ensures ReportsFirstBad(ls, j, ls[j])
  {
    var block := HeaderBlock(ls);
    assert j < |block| && block[j] == ls[j];
  }

  lemma ReportsLater(ls: seq<string>, j: nat, line: string)
    requires j < |ls| && forall i | 0 <= i <= j :: ls[i] != ""
    requires FieldOf(ls[j]).Some? && ReportsFirstBad(ls, j + 1, line)
    ensures ReportsFirstBad(ls, j, line)
  {
    var block := HeaderBlock(ls);
    assert j < |block| && block[j] == ls[j];
    var i :| j + 1 <= i < |block| && block[i] == line && FieldOf(block[i]).None? &&
             forall k | j + 1 <= k < i :: FieldOf(block[k]).Some?;
    assert forall k | j <= k < i :: FieldOf(block[k]).Some?;
  }

  /** When the header loop succeeds, its map is the one obtained by
      assigning the header-block fields in order: a later field with the
      same name wins, and a value keeps any further ": " it contains. */
  lemma {:induction false} ScanCollects(ls: seq<string>, j: nat, acc: map<string, string>)
    requires j <= |ls|
    requires forall i | 0 <= i < j :: ls[i] != ""
    requires ScanHeaders(ls, j, acc).Scanned?
    ensures var block := HeaderBlock(ls);
            j <= |block| && AllFields(block[j..]) &&
            ScanHeaders(ls, j, acc).headers == Collect(acc, FieldsOf(block[j..]))
    decreases |ls| - j
  {
    if j == |ls| || ls[j] == "" {
      ScanCollectsStop(ls, j, acc);
    } else {
      ScanStep(ls, j, acc);
      if FieldOf(ls[j]).None? {
        assert false;
      }
      var f := FieldOf(ls[j]).value;
      var acc' := acc[f.name := f.value];
      assert forall i | 0 <= i <= j :: ls[i] != "";
      assert ScanHeaders(ls, j + 1, acc').Scanned?;
      ScanCollects(ls, j + 1, acc');
      ScanCollectsField(ls, j, acc);
    }
  }

  /** One field line: the map after it is the map for the rest of the
      block, started from `acc` updated with that field. */
  lemma ScanCollectsField(ls: seq<string>, j: nat, acc: map<string, string>)
    requires j < |ls| && FieldOf(ls[j]).Some?
    requires forall i | 0 <= i <= j :: ls[i] != ""
    requires var f := FieldOf(ls[j]).value;
             var block := HeaderBlock(ls);
             j + 1 <= |block| && AllFields(block[j + 1..]) &&
             ScanHeaders(ls, j + 1, acc[f.name := f.value]).Scanned? &&
             ScanHeaders(ls, j + 1, acc[f.name := f.value]).headers
               == Collect(acc[f.name := f.value], FieldsOf(block[j + 1..]))
    ensures var block := HeaderBlock(ls);
            j <= |block| && AllFields(block[j..]) &&
            ScanHeaders(ls, j, acc).Scanned? &&
            ScanHeaders(ls, j, acc).headers == Collect(acc, FieldsOf(block[j..]))
  {
    var block := HeaderBlock(ls);
    assert j < |block| && block[j] == ls[j];
    var f := FieldOf(ls[j]).value;
    var acc' := acc[f.name := f.value];
    ScanStep(ls, j, acc);
    var rest := FieldsOf(block[j + 1..]);
    FieldsOfFrom(block, j);
    var all := FieldsOf(block[j..]);
    assert all == [f] + rest;
    calc {
      ScanHeaders(ls, j, acc).headers;
      ScanHeaders(ls, j + 1, acc').headers;
      Collect(acc', rest);
      { CollectPrepend(acc, f, rest); }
      Collect(acc, [f] + rest);
      Collect(acc, all);
    }
  }

  /** Where the header loop stops, no header-block line is left to read. */
  lemma ScanCollectsStop(ls: seq<string>, j: nat, acc: map<string, string>)
    requires j <= |ls| && (j == |ls| || ls[j] == "")
    requires forall i | 0 <= i < j :: ls[i] != ""
    ensures var block := HeaderBlock(ls);
            j == |block| && AllFields(block[j..]) &&
            ScanHeaders(ls, j, acc).headers == Collect(acc, FieldsOf(block[j..]))
  {
    var block := HeaderBlock(ls);
    assert |block| == j;
    assert block[j..] == [];
  }

  /** Reading the lines from `j` on is reading line `j`, then the rest. */
  lemma FieldsOfFrom(lines: seq<string>, j: nat)
    requires j < |lines| && AllFields(lines[j + 1..]) && FieldOf(lines[j]).Some?
    ensures AllFields(lines[j..])
    ensures FieldsOf(lines[j..]) == [FieldOf(lines[j]).value] + FieldsOf(lines[j + 1..])
  {
    var tail := lines[j..];
    assert AllFields(tail) by {
      forall i | 0 <= i < |tail| ensures FieldOf(tail[i]).Some? {
        if i > 0 {
          assert tail[i] == lines[j + 1..][i - 1];
        }
      }
    }
    var a := FieldsOf(tail);
    var b := [FieldOf(lines[j]).value] + FieldsOf(lines[j + 1..]);
    forall i | 0 <= i < |tail| ensures a[i] == b[i] {
      if i > 0 {
        assert tail[i] == lines[j + 1..][i - 1];
        assert Some(a[i]) == FieldOf(tail[i]) == Some(b[i]);
      }
    }
  }

  // ---------------------------------------------------------------------
  // The body slice, connections.go:52.

  /** With an empty line among lines[1:], the body starts AT that empty
      line: lines[e + 1:] where e is its index within lines[1:]. */
  lemma BodyFromSeparator(ls: seq<string>, j: nat, acc: map<string, string>, e: nat)
    requires j <= e < |ls| && ls[e] == ""
    requires forall i | j <= i < e :: ls[i] != ""
    ensures ScanHeaders(ls, j, acc).Scanned? ==> ScanHeaders(ls, j, acc).last == e
  {
  }

  /** Without an empty line, `i` ends on the last header line, so the body
      is the last line alone (or nothing when there are no header lines). */
  lemma BodyWithoutSeparator(ls: seq<string>, j: nat, acc: map<string, string>)
    requires j <= |ls|
    requires forall i | j <= i < |ls| :: ls[i] != ""
    ensures ScanHeaders(ls, j, acc).Scanned? ==> ScanHeaders(ls, j, acc).last == (if |ls| == 0 then 0 else |ls| - 1)
  {
  }

  /** The header map: the request is refused for a header-block line
      without ": ", and otherwise its headers are the block's fields assigned
      in order (connections.go:39-51). */
  lemma ParseHeaders(lines: seq<string>)
    requires |lines| >= 1
    ensures var block := HeaderBlock(lines[1..]);
            var p := ParseLines(lines);
            && ((exists i | 0 <= i < |block| :: FieldOf(block[i]).None?) <==> p.Halted? && p.halt.Aborted? && p.halt.reason.MalformedHeader?)
            && (p.Parsed? ==> AllFields(block) && p.req.headers == Collect(map[], FieldsOf(block)))
  {
    var ls := lines[1..];
    ScanFails(ls, 0, map[]);
    if ScanHeaders(ls, 0, map[]).Scanned? {
      ScanCollects(ls, 0, map[]);
      assert HeaderBlock(ls)[0..] == HeaderBlock(ls);
    }
  }

  /** The body (connections.go:52): the lines from the blank separator on,
      separator included; without a separator, only the last line; without
      header lines, nothing. */
  lemma ParseBody(lines: seq<string>)
    requires |lines| >= 1
    ensures var ls := lines[1..];
            var p := ParseLines(lines);
            && (p.Parsed? && FirstEmpty(ls).Some? ==> p.req.body == lines[FirstEmpty(ls).value + 1..] && p.req.body[0] == "")
            && (p.Parsed? && FirstEmpty(ls).None? && |ls| > 0 ==> p.req.body == [lines[|lines| - 1]])
            && (p.Parsed? && |ls| == 0 ==> p.req.body == [])
  {
    var ls := lines[1..];
    if FirstEmpty(ls).Some? {
      BodyFromSeparator(ls, 0, map[], FirstEmpty(ls).value);
      assert lines[FirstEmpty(ls).value + 1] == ls[FirstEmpty(ls).value];
    } else {
      BodyWithoutSeparator(ls, 0, map[]);
    }
  }

  /** With the header lines read, the start-line decides: fewer than two
      space-separated tokens is the start_line[1] panic, and otherwise the
      method is the first token, the target the second, and the path its
      decoded '/'-separated segments. */
  lemma ParseStartLine(lines: seq<string>)
    requires |lines| >= 1
    requires ScanHeaders(lines[1..], 0, map[]).Scanned?
    ensures var start := Split(lines[0], " ");
            var p := ParseLines(lines);
            && (|start| < 2 <==> p == Halted(Panicked(StartLineToken1)))
            && (|start| >= 2 && DecodeSegments(Split(start[1], "/")).Decoded? ==>
                  p.Parsed? && p.req.verb == start[0] && p.req.target == start[1] &&
                  p.req.path == DecodeSegments(Split(start[1], "/")).parts)
  {
  }

  /** Every segment is decoded on its own, and any segment that does not
      decode aborts the connection. */
  lemma PathDecoding(lines: seq<string>)
    requires |lines| >= 1
    ensures var start := Split(lines[0], " ");
            var p := ParseLines(lines);
            && (p.Parsed? ==> var segs := Split(start[1], "/");
                 |p.req.path| == |segs| && forall i | 0 <= i < |segs| :: Percent.Unescape(segs[i]) == Some(p.req.path[i]))
            && (p.Halted? && p.halt.Aborted? && p.halt.reason.BadEscape? ==>
                 |start| >= 2 && exists i :: 0 <= i < |Split(start[1], "/")| && Percent.Unescape(Split(start[1], "/")[i]).None?)
            && (|start| < 2 && ScanHeaders(lines[1..], 0, map[]).Scanned? ==> p == Halted(Panicked(StartLineToken1)))
  {
  }

  // ---------------------------------------------------------------------
  // A client's request text, and reading it back.

  const Version: string := "HTTP/1.1"

  lemma VersionPlain()
    ensures Lacks(Version, ' ') && Lacks(Version, '\r')
  {
    forall i | 0 <= i < |Version|
      ensures Version[i] != ' ' && Version[i] != '\r'
    {
      assert Version[i] in "HTTP/1.1";
    }
  }


  /** The lines of a request: start-line, header lines, the blank line, and
      the body's lines. */
  function RequestLines(verb: string, target: string, fs: seq<Field>, bodyLines: seq<string>): seq<string>
  {
    [verb + " " + target + " " + Version] + FieldLines(fs) + [""] + bodyLines
  }

  function RenderRequest(verb: string, target: string, fs: seq<Field>, bodyLines: seq<string>): string
  {
    Join(RequestLines(verb, target, fs, bodyLines), CRLF)
  }


  lemma FieldLinesRead(fs: seq<Field>)
    requires forall i | 0 <= i < |fs| :: Sendable(fs[i])
    ensures AllFields(FieldLines(fs)) && FieldsOf(FieldLines(fs)) == fs
    ensures forall i | 0 <= i < |fs| :: FieldLines(fs)[i] != "" && Lacks(FieldLines(fs)[i], '\r')
  {
    forall i | 0 <= i < |fs|
      ensures FieldOf(FieldLines(fs)[i]) == Some(fs[i])
      ensures Lacks(FieldLines(fs)[i], '\r')
    {
      FieldLineReads(fs[i]);
    }
  }

  lemma HeaderBlockOfRequest(fs: seq<Field>, bodyLines: seq<string>)
    requires forall i | 0 <= i < |fs| :: FieldLines(fs)[i] != ""
    ensures var ls := FieldLines(fs) + [""] + bodyLines;
            FirstEmpty(ls) == Some(|fs|) && HeaderBlock(ls) == FieldLines(fs)
  {
    var ls := FieldLines(fs) + [""] + bodyLines;
    assert ls[|fs|] == "";
    assert ls[..|fs|] == FieldLines(fs);
  }

  /** Lines without a carriage return come back from splitting their
      CRLF-join. */
  lemma SplitLines(lines: seq<string>)
    requires |lines| >= 1
    requires forall i | 0 <= i < |lines| :: Lacks(lines[i], '\r')
    ensures Split(Join(lines, CRLF), CRLF) == lines
  {
    forall i | 0 <= i < |lines|
      ensures !Contains(lines[i], CRLF)
    {
      LacksFirst(lines[i], CRLF);
    }
    CRLFSelfOverlapFree();
    SplitJoin(lines, CRLF);
  }

  lemma StartLineLacksCR(verb: string, target: string, version: string)
    requires Lacks(verb, '\r') && Lacks(target, '\r') && Lacks(version, '\r')
    ensures Lacks(verb + " " + target + " " + version, '\r')
  {
    LacksConcat(verb, " ", '\r');
    LacksConcat(verb + " ", target, '\r');
    LacksConcat(verb + " " + target, " ", '\r');
    LacksConcat(verb + " " + target + " ", version, '\r');
  }

  lemma AssembledLacksCR(first: string, mid: seq<string>, last: seq<string>)
    requires Lacks(first, '\r')
    requires forall i | 0 <= i < |mid| :: Lacks(mid[i], '\r')
    requires forall i | 0 <= i < |last| :: Lacks(last[i], '\r')
    ensures var ls := [first] + mid + [""] + last;
            forall i | 0 <= i < |ls| :: Lacks(ls[i], '\r')
  {
    var ls := [first] + mid + [""] + last;
    forall i | 0 <= i < |ls|
      ensures Lacks(ls[i], '\r')
    {
      if i == 0 {
      } else if i <= |mid| {
        assert ls[i] == mid[i - 1];
      } else if i == |mid| + 1 {
      } else {
        assert ls[i] == last[i - |mid| - 2];
      }
    }
  }

  /** The request text splits back into its lines. */
  lemma RequestLinesSplit(verb: string, target: string, fs: seq<Field>, bodyLines: seq<string>)
    requires Lacks(verb, '\r') && Lacks(target, '\r')
    requires forall i | 0 <= i < |fs| :: Sendable(fs[i])
    requires forall i | 0 <= i < |bodyLines| :: Lacks(bodyLines[i], '\r')
    ensures Split(RenderRequest(verb, target, fs, bodyLines), CRLF) == RequestLines(verb, target, fs, bodyLines)
  {
    FieldLinesRead(fs);
    VersionPlain();
    StartLineLacksCR(verb, target, Version);
    AssembledLacksCR(verb + " " + target + " " + Version, FieldLines(fs), bodyLines);
    SplitLines(RequestLines(verb, target, fs, bodyLines));
  }

  /** The start-line splits into method, target and version. */
  lemma StartLineSplit(verb: string, target: string, version: string)
    requires Lacks(verb, ' ') && Lacks(target, ' ') && Lacks(version, ' ')
    ensures Split(verb + " " + target + " " + version, " ") == [verb, target, version]
  {
    var start := [verb, target, version];
    assert start[1..] == [target, version] && start[1..][1..] == [version];
    assert Join([version], " ") == version;
    assert Join([target, version], " ") == target + " " + version;
    assert Join(start, " ") == verb + " " + target + " " + version;
    LacksFirst(verb, " ");
    LacksFirst(target, " ");
    LacksFirst(version, " ");
    SplitJoin(start, " ");
  }

  /** The header loop over a client's header lines stops on the blank
      line after them, with the fields assigned in order. */
  lemma ScanRequestLines(fs: seq<Field>, bodyLines: seq<string>)
    requires forall i | 0 <= i < |fs| :: Sendable(fs[i])
    ensures ScanHeaders(FieldLines(fs) + [""] + bodyLines, 0, map[]) == Scanned(Collect(map[], fs), |fs|)
  {
    var ls := FieldLines(fs) + [""] + bodyLines;
    FieldLinesRead(fs);
    HeaderBlockOfRequest(fs, bodyLines);
    ScanFails(ls, 0, map[]);
    ScanCollects(ls, 0, map[]);
    BodyFromSeparator(ls, 0, map[], |fs|);
    assert HeaderBlock(ls)[0..] == FieldLines(fs);
  }

  lemma ParseAssembled(lines: seq<string>, verb: string, target: string, headers: map<string, string>, k: nat)
    requires |lines| >= 1 && k + 1 <= |lines|
    requires ScanHeaders(lines[1..], 0, map[]) == Scanned(headers, k)
    requires Split(lines[0], " ") == [verb, target, Version]
    requires DecodeSegments(Split(target, "/")).Decoded?
    ensures ParseLines(lines) == Parsed(Request(verb, target, DecodeSegments(Split(target, "/")).parts, headers, lines[k + 1..]))
  {
  }

  lemma RequestLinesShape(verb: string, target: string, fs: seq<Field>, bodyLines: seq<string>)
    ensures var lines := RequestLines(verb, target, fs, bodyLines);
            && |lines| == |fs| + 2 + |bodyLines|
            && lines[0] == verb + " " + target + " " + Version
            && lines[1..] == FieldLines(fs) + [""] + bodyLines
            && lines[|fs| + 1..] == [""] + bodyLines
  {
    var lines := RequestLines(verb, target, fs, bodyLines);
    assert lines == [lines[0]] + FieldLines(fs) + [""] + bodyLines;
  }

  /** A request a client writes is read back as written: method, target,
      headers (assigned in order) and a body that starts with the blank
      separator line, provided its target's segments all decode. */
  lemma RequestRoundTrip(verb: string, target: string, fs: seq<Field>, bodyLines: seq<string>)
    requires Lacks(verb, ' ') && Lacks(verb, '\r') && Lacks(target, ' ') && Lacks(target, '\r')
    requires forall i | 0 <= i < |fs| :: Sendable(fs[i])
    requires forall i | 0 <= i < |bodyLines| :: Lacks(bodyLines[i], '\r')
    requires DecodeSegments(Split(target, "/")).Decoded?
    ensures ParseRequest(RenderRequest(verb, target, fs, bodyLines)) ==
              Parsed(Request(verb, target, DecodeSegments(Split(target, "/")).parts, Collect(map[], fs), [""] + bodyLines))
  {
    var lines := RequestLines(verb, target, fs, bodyLines);
    RequestLinesSplit(verb, target, fs, bodyLines);
    RequestLinesShape(verb, target, fs, bodyLines);
    ScanRequestLines(fs, bodyLines);
    VersionPlain();
    StartLineSplit(verb, target, Version);
    ParseAssembled(lines, verb, target, Collect(map[], fs), |fs|);
  }

  /** The body handed to an upload starts at the blank separator line, so
      the content written, the body lines joined by "\n", gains a leading
      newline. */
  lemma UploadContentLeadingNewline(verb: string, target: string, fs: seq<Field>, bodyLines: seq<string>)
    requires Lacks(verb, ' ') && Lacks(verb, '\r') && Lacks(target, ' ') && Lacks(target, '\r')
    requires forall i | 0 <= i < |fs| :: Sendable(fs[i])
    requires forall i | 0 <= i < |bodyLines| :: Lacks(bodyLines[i], '\r')
    requires DecodeSegments(Split(target, "/")).Decoded?
    ensures var p := ParseRequest(RenderRequest(verb, target, fs, bodyLines));
            && p.Parsed?
            && Join(p.req.body, "\n") == if bodyLines == [] then "" else "\n" + Join(bodyLines, "\n")
  {
    RequestRoundTrip(verb, target, fs, bodyLines);
    var p := ParseRequest(RenderRequest(verb, target, fs, bodyLines));
    assert p.Parsed? && p.req.body == [""] + bodyLines;
    JoinCons("", bodyLines, "\n");
  }
}

=== FILE: response.dfy ===
/** The second half of `handle_conn` (server/connections.go lines 66-75 and
    161-214): the reply of the routing switch becomes a response. The body is
    gzip-compressed when the request accepts gzip and the body is not empty;
    the headers Content-Encoding, Content-Type, Connection and Content-Length
    are set in a Go map; the head is the status line, one "name: value" line
    per header in map order, and a blank line; the body follows when it is not
    empty.

    gzip itself is not modelled: `Gzip` is an oracle from a body to its
    compressed bytes, or None when the gzip writer reports an error. Go's map
    iteration order is an environment choice, the transpositions `swaps`. */
module Response {
  import opened Strings
  import opened Fields
  import Routes

  datatype Response = Response(status: nat, reason: string, fields: seq<Field>, body: string)

  type Gzip = string -> Option<string>

  /** connections.go:70-75: the request's Accept-Encoding mentions gzip. */
  predicate AcceptsGzip(h: map<string, string>)
  {
    "Accept-Encoding" in h && Contains(h["Accept-Encoding"], "gzip")
  }

  /** connections.go:179: the Connection header, lower-cased, is "close"
      (a missing header reads as ""). */
  predicate WantsClose(h: map<string, string>)
  {
    "Connection" in h && Lower(h["Connection"]) == "close"
  }

  /** The response header map, in the order the handler assigns it. */
  function ResponseFields(h: map<string, string>, reply: Routes.Reply, length: nat): (fs: seq<Field>)
    ensures DistinctNames(fs)
  {
    var f0: seq<Field> := if AcceptsGzip(h) then [Field("Content-Encoding", "gzip")] else [];
    var f1 := if reply.contentType.Some? then Put(f0, "Content-Type", reply.contentType.value) else f0;
    var f2 := Put(f1, "Connection", if WantsClose(h) then "close" else "keep-alive");
    Put(f2, "Content-Length", Decimal(length))
  }

  lemma LiteralFieldsSendable()
    ensures Sendable(Field("Content-Encoding", "gzip"))
    ensures Sendable(Field("Connection", "close")) && Sendable(Field("Connection", "keep-alive"))
    ensures Lacks("Content-Type", ':') && Lacks("Content-Type", '\r')
    ensures Lacks("Content-Length", ':') && Lacks("Content-Length", '\r')
  {
    forall i | 0 <= i < 16 ensures "Content-Encoding"[i] != ':' && "Content-Encoding"[i] != '\r' {
      assert "Content-Encoding"[i] in "Content-Encoding";
    }
    forall i | 0 <= i < 4 ensures "gzip"[i] != '\r' { assert "gzip"[i] in "gzip"; }
    forall i | 0 <= i < 10 ensures "Connection"[i] != ':' && "Connection"[i] != '\r' {
      assert "Connection"[i] in "Connection";
    }
    forall i | 0 <= i < 5 ensures "close"[i] != '\r' { assert "close"[i] in "close"; }
    forall i | 0 <= i < 10 ensures "keep-alive"[i] != '\r' { assert "keep-alive"[i] in "keep-alive"; }
    forall i | 0 <= i < 12 ensures "Content-Type"[i] != ':' && "Content-Type"[i] != '\r' {
      assert "Content-Type"[i] in "Content-Type";
    }
    forall i | 0 <= i < 14 ensures "Content-Length"[i] != ':' && "Content-Length"[i] != '\r' {
      assert "Content-Length"[i] in "Content-Length";
    }
  }

  /** Every response header can be written as a line and read back, given
      a Content-Type without a carriage return. */
  lemma ResponseFieldsSendable(h: map<string, string>, reply: Routes.Reply, length: nat)
    requires Routes.Plain(reply)
    ensures forall i | 0 <= i < |ResponseFields(h, reply, length)| :: Sendable(ResponseFields(h, reply, length)[i])
  {
    LiteralFieldsSendable();
    var f0: seq<Field> := if AcceptsGzip(h) then [Field("Content-Encoding", "gzip")] else [];
    if reply.contentType.Some? {
      PutSendable(f0, "Content-Type", reply.contentType.value);
    }
    var f1 := if reply.contentType.Some? then Put(f0, "Content-Type", reply.contentType.value) else f0;
    PutSendable(f1, "Connection", if WantsClose(h) then "close" else "keep-alive");
    var f2 := Put(f1, "Connection", if WantsClose(h) then "close" else "keep-alive");
    var d := Decimal(length);
    assert Lacks(d, '\r') by {
      forall i | 0 <= i < |d| ensures d[i] != '\r' {
        assert IsDigit(d[i]);
      }
    }
    PutSendable(f2, "Content-Length", d);
  }

  /** connections.go:161-186: compress when asked and there is something to
      compress, then set the headers. None is the `return` taken when the
      gzip writer fails. */
  function Finalize(h: map<string, string>, reply: Routes.Reply, gzip: Gzip): (r: Option<Response>)
    ensures r.None? <==> AcceptsGzip(h) && reply.body != "" && gzip(reply.body).None?
    ensures r.Some? ==> r.value.status == reply.status && r.value.reason == reply.reason
    ensures r.Some? && !(AcceptsGzip(h) && reply.body != "") ==> r.value.body == reply.body
    ensures r.Some? && AcceptsGzip(h) && reply.body != "" ==> Some(r.value.body) == gzip(reply.body)
    ensures r.Some? ==> r.value.fields == ResponseFields(h, reply, |r.value.body|)
    ensures r.Some? ==> DistinctNames(r.value.fields)
  {
    var body := if AcceptsGzip(h) && reply.body != "" then gzip(reply.body) else Some(reply.body);
    match body
    case None => None
    case Some(b) => Some(Response(reply.status, reply.reason, ResponseFields(h, reply, |b|), b))
  }

  /** The header map the handler ends up with, assignment by assignment. */
  lemma ResponseFieldMap(h: map<string, string>, reply: Routes.Reply, length: nat)
    ensures var m0: map<string, string> := if AcceptsGzip(h) then map["Content-Encoding" := "gzip"] else map[];
            var m1 := if reply.contentType.Some? then m0["Content-Type" := reply.contentType.value] else m0;
            FieldMap(ResponseFields(h, reply, length)) ==
              m1["Connection" := if WantsClose(h) then "close" else "keep-alive"]["Content-Length" := Decimal(length)]
  {
    var f0: seq<Field> := if AcceptsGzip(h) then [Field("Content-Encoding", "gzip")] else [];
    var f1 := if reply.contentType.Some? then Put(f0, "Content-Type", reply.contentType.value) else f0;
    var f2 := Put(f1, "Connection", if WantsClose(h) then "close" else "keep-alive");
    assert FieldMap(f0) == if AcceptsGzip(h) then map["Content-Encoding" := "gzip"] else map[] by {
      if AcceptsGzip(h) {
        assert f0[1..] == [];
        assert Collect(map[], f0) == Collect(map["Content-Encoding" := "gzip"], []);
      }
    }
    if reply.contentType.Some? {
      PutAssigns(f0, "Content-Type", reply.contentType.value);
    }
    PutAssigns(f1, "Connection", if WantsClose(h) then "close" else "keep-alive");
    PutAssigns(f2, "Content-Length", Decimal(length));
  }

  /** The response headers as a map: Content-Encoding exactly when gzip is
      accepted (even for an empty body), Content-Type exactly when the route
      chose one, Connection "close" exactly when the client asked to close,
      and a Content-Length that reads back as the body's length. */
  lemma ResponseHeaders(h: map<string, string>, reply: Routes.Reply, length: nat)
    ensures var m := FieldMap(ResponseFields(h, reply, length));
            && m.Keys <= {"Content-Encoding", "Content-Type", "Connection", "Content-Length"}
            && ("Content-Encoding" in m <==> AcceptsGzip(h))
            && (AcceptsGzip(h) ==> m["Content-Encoding"] == "gzip")
            && ("Content-Type" in m <==> reply.contentType.Some?)
            && (reply.contentType.Some? ==> m["Content-Type"] == reply.contentType.value)
            && "Connection" in m && (m["Connection"] == "close" <==> WantsClose(h))
            && (m["Connection"] == "close" || m["Connection"] == "keep-alive")
            && "Content-Length" in m && ParseDecimal(m["Content-Length"]) == Some(length)
  {
    ResponseFieldMap(h, reply, length);
  }

  // ---------------------------------------------------------------------
  // The bytes on the wire, connections.go:188-211.

  /** "HTTP/1.1 %d %s\r\n" */
  function StatusLine(status: nat, reason: string): string
  {
    "HTTP/1.1 " + Decimal(status) + " " + reason + CRLF
  }

  /** One "name: value\r\n" per field, in the given order. */
  function FieldsText(fs: seq<Field>): string
    decreases |fs|
  {
    if fs == [] then "" else FieldLine(fs[0]) + CRLF + FieldsText(fs[1..])
  }

  /** The head as the handler builds it, with the header map's iteration
      order chosen by `swaps`. */
  function Head(r: Response, swaps: seq<(nat, nat)>): string
  {
    StatusLine(r.status, r.reason) + FieldsText(Shuffle(r.fields, swaps)) + CRLF
  }

  /** The writes to the connection: the head, then the body if any. */
  function Writes(r: Response, swaps: seq<(nat, nat)>): (ws: seq<string>)
    ensures |ws| == (if r.body == "" then 1 else 2)
    ensures forall i | 0 <= i < |ws| :: ws[i] != ""
  {
    [Head(r, swaps)] + (if r.body == "" then [] else [r.body])
  }

  function Concat(ws: seq<string>): string
    decreases |ws|
  {
    if ws == [] then "" else ws[0] + Concat(ws[1..])
  }

  function Wire(r: Response, swaps: seq<(nat, nat)>): string
  {
    Concat(Writes(r, swaps))
  }

  lemma WireIsHeadAndBody(r: Response, swaps: seq<(nat, nat)>)
    ensures Wire(r, swaps) == Head(r, swaps) + r.body
  {
    var ws := Writes(r, swaps);
    if r.body == "" {
      assert Concat(ws) == ws[0] + Concat([]);
    } else {
      assert ws[1..] == [r.body];
      assert Concat(ws[1..]) == r.body + Concat([]);
    }
  }

  // ---------------------------------------------------------------------
  // A client reading a response off the wire.

  datatype Message = Message(status: nat, reason: string, headers: map<string, string>, body: string)

  function ReadStatusLine(line: string): Option<(nat, string)>
  {
    if !HasPrefix(line, "HTTP/1.1 ") then None
    else
      match Cut(line[9..], " ")
      case None => None
      case Some((code, reason)) =>
        match ParseDecimal(code)
        case None => None
        case Some(n) => Some((n, reason))
  }

  /** Header lines up to the blank line, assigned in order into `acc`; the
      text after the blank line is returned with the map. */
  function ReadFields(s: string, acc: map<string, string>): Option<(map<string, string>, string)>
    decreases |s|
  {
    match Cut(s, CRLF)
    case None => None
    case Some((line, rest)) =>
      if line == "" then Some((acc, rest))
      else
        match Cut(line, ": ")
        case None => None
        case Some((name, value)) => ReadFields(rest, acc[name := value])
  }

  /** One response, framed by its Content-Length; the rest of the input is
      returned with it. */
  function ReadResponse(wire: string): Option<(Message, string)>
  {
    match Cut(wire, CRLF)
    case None => None
    case Some((first, rest)) =>
      match ReadStatusLine(first)
      case None => None
      case Some((status, reason)) =>
        match ReadFields(rest, map[])
        case None => None
        case Some((h, tail)) =>
          if "Content-Length" !in h then None
          else
            match ParseDecimal(h["Content-Length"])
            case None => None
            case Some(n) =>
              if n > |tail| then None
              else Some((Message(status, reason, h, tail[..n]), tail[n..]))
  }

  /** A response that can be read back: distinct sendable fields, a reason
      without a line end, and a Content-Length that gives the body's length. */
  predicate WellFramed(r: Response)
  {
    && DistinctNames(r.fields)
    && (forall i | 0 <= i < |r.fields| :: Sendable(r.fields[i]))
    && Lacks(r.reason, '\r')
    && "Content-Length" in FieldMap(r.fields)
    && ParseDecimal(FieldMap(r.fields)["Content-Length"]) == Some(|r.body|)
  }

  lemma {:induction false} ReadFieldsText(fs: seq<Field>, acc: map<string, string>, tail: string)
    requires forall i | 0 <= i < |fs| :: Sendable(fs[i])
    ensures ReadFields(FieldsText(fs) + CRLF + tail, acc) == Some((Collect(acc, fs), tail))
    decreases |fs|
  {
    CRLFSelfOverlapFree();
    if fs == [] {
      assert !Contains("", CRLF);
      CutJoin("", CRLF, tail);
      assert FieldsText(fs) + CRLF + tail == "" + CRLF + tail;
    } else {
      var f := fs[0];
      var rest := FieldsText(fs[1..]) + CRLF + tail;
      FieldLineReads(f);
      LacksFirst(FieldLine(f), CRLF);
      CutJoin(FieldLine(f), CRLF, rest);
      assert FieldsText(fs) + CRLF + tail == FieldLine(f) + CRLF + rest;
      ReadFieldsText(fs[1..], acc[f.name := f.value], tail);
    }
  }

  lemma ReadStatus(status: nat, reason: string)
    ensures ReadStatusLine("HTTP/1.1 " + Decimal(status) + " " + reason) == Some((status, reason))
  {
    var d := Decimal(status);
    var line := "HTTP/1.1 " + d + " " + reason;
    assert line[..9] == "HTTP/1.1 ";
    assert line[9..] == d + " " + reason;
    assert Lacks(d, ' ') by {
      forall i | 0 <= i < |d| ensures d[i] != ' ' {
        assert IsDigit(d[i]);
      }
    }
    LacksFirst(d, " ");
    CutJoin(d, " ", reason);
  }

  /** The head splits at its first CRLF into the status line and the rest. */
  lemma HeadSplits(r: Response, swaps: seq<(nat, nat)>, more: string)
    requires Lacks(r.reason, '\r')
    ensures var first := "HTTP/1.1 " + Decimal(r.status) + " " + r.reason;
            Cut(Head(r, swaps) + more, CRLF) == Some((first, FieldsText(Shuffle(r.fields, swaps)) + CRLF + more))
  {
    var d := Decimal(r.status);
    var first := "HTTP/1.1 " + d + " " + r.reason;
    assert Lacks("HTTP/1.1 ", '\r') by {
      forall i | 0 <= i < 9 ensures "HTTP/1.1 "[i] != '\r' {
        assert "HTTP/1.1 "[i] in "HTTP/1.1 ";
      }
    }
    assert Lacks(d, '\r') by {
      forall i | 0 <= i < |d| ensures d[i] != '\r' {
        assert IsDigit(d[i]);
      }
    }
    LacksConcat("HTTP/1.1 ", d, '\r');
    LacksConcat("HTTP/1.1 " + d, " ", '\r');
    LacksConcat("HTTP/1.1 " + d + " ", r.reason, '\r');
    LacksFirst(first, CRLF);
    CRLFSelfOverlapFree();
    var rest := FieldsText(Shuffle(r.fields, swaps)) + CRLF + more;
    CutJoin(first, CRLF, rest);
    assert Head(r, swaps) + more == first + CRLF + rest;
  }

  lemma ShuffleSendable(fs: seq<Field>, swaps: seq<(nat, nat)>)
    requires forall i | 0 <= i < |fs| :: Sendable(fs[i])
    ensures forall i | 0 <= i < |Shuffle(fs, swaps)| :: Sendable(Shuffle(fs, swaps)[i])
  {
    var shuffled := Shuffle(fs, swaps);
    Fields.SameMembers(shuffled, fs);
    forall i | 0 <= i < |shuffled|
      ensures Sendable(shuffled[i])
    {
      assert shuffled[i] in fs;
    }
  }

  lemma ReadAssembled(wire: string, first: string, rest: string, status: nat, reason: string,
                      h: map<string, string>, body: string, more: string)
    requires Cut(wire, CRLF) == Some((first, rest))
    requires ReadStatusLine(first) == Some((status, reason))
    requires ReadFields(rest, map[]) == Some((h, body + more))
    requires "Content-Length" in h && ParseDecimal(h["Content-Length"]) == Some(|body|)
    ensures ReadResponse(wire) == Some((Message(status, reason, h, body), more))
  {
    assert (body + more)[..|body|] == body;
    assert (body + more)[|body|..] == more;
  }

  /** The whole response followed by more bytes splits at its first CRLF
      into the status line and the rest. */
  lemma WireSplits(r: Response, swaps: seq<(nat, nat)>, more: string)
    requires Lacks(r.reason, '\r')
    ensures Cut(Wire(r, swaps) + more, CRLF)
         == Some(("HTTP/1.1 " + Decimal(r.status) + " " + r.reason,
                  FieldsText(Shuffle(r.fields, swaps)) + CRLF + (r.body + more)))
  {
    WireIsHeadAndBody(r, swaps);
    assert Wire(r, swaps) + more == Head(r, swaps) + (r.body + more);
    HeadSplits(r, swaps, r.body + more);
  }

  /** The fields, in any order, read back as the response's header map. */
  lemma FieldsReadBack(r: Response, swaps: seq<(nat, nat)>, tail: string)
    requires WellFramed(r)
    ensures ReadFields(FieldsText(Shuffle(r.fields, swaps)) + CRLF + tail, map[]) == Some((FieldMap(r.fields), tail))
  {
    ShuffleCollect(r.fields, swaps);
    ShuffleSendable(r.fields, swaps);
    ReadFieldsText(Shuffle(r.fields, swaps), map[], tail);
  }

  /** Every response the handler builds from a reply of the switch can be
      read back. */
  lemma FinalizeFramed(h: map<string, string>, reply: Routes.Reply, gzip: Gzip)
    requires Routes.Plain(reply) && Finalize(h, reply, gzip).Some?
    ensures WellFramed(Finalize(h, reply, gzip).value)
  {
    var r := Finalize(h, reply, gzip).value;
    ResponseFieldsSendable(h, reply, |r.body|);
    ResponseHeaders(h, reply, |r.body|);
  }

  /** Whatever order the headers go out in, a client reads back the status,
      the reason, the header map and exactly the body, and the bytes after
      it are left for the next response. */
  lemma ResponseRoundTrip(r: Response, swaps: seq<(nat, nat)>, more: string)
    requires WellFramed(r)
    ensures ReadResponse(Wire(r, swaps) + more) == Some((Message(r.status, r.reason, FieldMap(r.fields), r.body), more))
  {
    WireSplits(r, swaps, more);
    ReadStatus(r.status, r.reason);
    FieldsReadBack(r, swaps, r.body + more);
    ReadAssembled(Wire(r, swaps) + more, "HTTP/1.1 " + Decimal(r.status) + " " + r.reason,
                  FieldsText(Shuffle(r.fields, swaps)) + CRLF + (r.body + more), r.status, r.reason,
                  FieldMap(r.fields), r.body, more);
  }

  // ---------------------------------------------------------------------
  // Compression is transparent to a client that undoes it.

  /** What a client makes of the body: gunzip it when the response says
      gzip, take it as it is otherwise. */
  function ClientBody(m: Message, gunzip: Gzip): Option<string>
  {
    if "Content-Encoding" in m.headers && m.headers["Content-Encoding"] == "gzip" then gunzip(m.body)
    else Some(m.body)
  }

  /** With a gunzip that inverts gzip, a client recovers the route's body
      from any non-empty response the handler sends. */
  lemma GzipTransparent(h: map<string, string>, reply: Routes.Reply, gzip: Gzip, gunzip: Gzip)
    requires forall x :: gzip(x).Some? ==> gunzip(gzip(x).value) == Some(x)
    requires reply.body != "" && Finalize(h, reply, gzip).Some?
    ensures var r := Finalize(h, reply, gzip).value;
            ClientBody(Message(r.status, r.reason, FieldMap(r.fields), r.body), gunzip) == Some(reply.body)
  {
    var r := Finalize(h, reply, gzip).value;
    ResponseHeaders(h, reply, |r.body|);
  }

  /** An empty body is never compressed, yet the response still announces
      gzip when the client accepts it (connections.go:73 and :162). */
  lemma EmptyBodyStillLabelled(h: map<string, string>, reply: Routes.Reply, gzip: Gzip)
    requires AcceptsGzip(h) && reply.body == ""
    ensures var r := Finalize(h, reply, gzip);
            && r.Some? && r.value.body == ""
            && "Content-Encoding" in FieldMap(r.value.fields)
            && FieldMap(r.value.fields)["Content-Encoding"] == "gzip"
            && "Content-Length" in FieldMap(r.value.fields)
            && ParseDecimal(FieldMap(r.value.fields)["Content-Length"]) == Some(0)
  {
    ResponseHeaders(h, reply, 0);
  }
}

=== FILE: routes.dfy ===
/** The routing switch of `handle_conn` (server/connections.go lines 77-159):
    from the decoded path segments, the method and the headers to a status,
    a reason phrase, a Content-Type and a body, and for uploads a change to
    the files under the served directory.

    The filesystem is a map from a path's clean form to the contents of the
    regular file there. Directories are implied by the files below them; the
    served directory itself is taken to exist. Failures the model can see
    (opening a directory for writing, creating a directory where a file
    stands) follow from the map; every other failure of MkdirAll, OpenFile
    or WriteString is an environment choice, `FileFault`. Symbolic links are
    not modelled, so the operating system resolves a path the way
    filepath.Clean does. */
module Routes {
  import opened Strings
  import opened FilePath
  import Request
  import Percent

  datatype Reply = Reply(status: nat, reason: string, contentType: Option<string>, body: string)

  function TextReply(status: nat, reason: string, body: string): Reply
  {
    Reply(status, reason, Some("text/plain"), body)
  }

  const NotFound: Reply := TextReply(404, "Not Found", "404 Not Found")
  const BadUpload: Reply := TextReply(400, "Bad Request", "400 Bad Request")
  const ServerError: Reply := TextReply(500, "Internal Server Error", "500 Internal Server Error")
  const Created: Reply := TextReply(201, "Created", "Created")
  const MissingAgent: Reply := TextReply(400, "Bad Request", "User-Agent header missing")

  /** Regular files, by clean path. */
  type Files = map<PathForm, string>

  /** What goes wrong for reasons the map does not show (permissions, a
      full disk, ...). A write that fails leaves the file created, truncated,
      and holding the first `written` bytes of the content (all of it when
      `written` exceeds its length). */
  datatype FileFault = NoFault | MkdirFails | OpenFails | WriteFails(written: nat)

  /** `b` lies strictly below `a`. */
  predicate Below(a: PathForm, b: PathForm)
  {
    a.rooted == b.rooted && |a.elems| < |b.elems| && b.elems[..|a.elems|] == a.elems
  }

  /** `t` is a directory: the served one, or one holding some file. */
  predicate IsDirectory(dir: string, fs: Files, t: PathForm)
  {
    t == Lex(dir) || exists k | k in fs :: Below(t, k)
  }

  /** Some file stands where a directory above `t` would have to be. */
  predicate FileAbove(fs: Files, t: PathForm)
  {
    exists k | k in fs :: Below(k, t)
  }

  /** A filesystem with `dir` as a directory: no file lies below another,
      and no file is `dir` or above it. */
  predicate Layout(dir: string, fs: Files)
  {
    && (forall a, b | a in fs && b in fs :: !Below(a, b))
    && Lex(dir) !in fs
    && !FileAbove(fs, Lex(dir))
  }

  /** os.ReadFile: the file's contents, or an error when no regular file is
      there. Any spelling of the same clean path reads the same file. */
  function ReadFile(fs: Files, path: string): Option<string>
  {
    if Lex(path) in fs then Some(fs[Lex(path)]) else None
  }

  lemma ReadFileClean(fs: Files, path: string)
    ensures ReadFile(fs, Clean(path)) == ReadFile(fs, path)
  {
    CleanIdempotent(path);
  }

  /** The file a GET of `name` reads: the directory, "/", and the cleaned
      name, glued as strings (connections.go:103). */
  function GetTarget(dir: string, name: string): string
  {
    dir + "/" + Clean(name)
  }

  /** connections.go:102-114. */
  function GetFile(dir: string, name: string, fs: Files): (r: Reply)
    ensures r.status == 200 <==> Lex(GetTarget(dir, name)) in fs
    ensures r.status == 200 ==> r == Reply(200, "OK", Some("application/octet-stream"), fs[Lex(GetTarget(dir, name))])
    ensures r.status != 200 ==> r == NotFound
  {
    match ReadFile(fs, GetTarget(dir, name))
    case None => NotFound
    case Some(data) => Reply(200, "OK", Some("application/octet-stream"), data)
  }

  /** A GET whose name has no ".." once cleaned reads the file at the
      directory's form extended by the name's elements: it stays under the
      directory (a rooted name is read under it too). */
  lemma GetStaysUnderDir(dir: string, name: string)
    requires dir != ""
    requires forall i | 0 <= i < |Lex(name).elems| :: Lex(name).elems[i] != ".."
    ensures Lex(GetTarget(dir, name)) == PathForm(Lex(dir).rooted, Lex(dir).elems + Lex(name).elems)
    ensures Within(Lex(dir), Lex(GetTarget(dir, name)))
  {
    LexAppend(dir, Clean(name));
    ResolveClimbFree(Lex(dir).elems, Lex(dir).rooted, name);
    var t := Lex(GetTarget(dir, name));
    assert t.elems[..|Lex(dir).elems|] == Lex(dir).elems;
  }

  /** GET has no guard: the segment "..%2Fx" decodes to "../x", and a GET
      of it under "/srv" reads "/x". */
  lemma GetLeavesDir()
    ensures Percent.Unescape("..%2Fx") == Some("../x")
    ensures Lex(GetTarget("/srv", "../x")) == PathForm(true, ["x"])
    ensures !Within(Lex("/srv"), Lex(GetTarget("/srv", "../x")))
  {
    UnescapeClimb();
    SrvForm();
    SrvClimb();
    assert ["x"][..1] == ["x"] && ["x"][0] != ["srv"][0];
  }

  /** The guard tests Rel's answer as a string, so a name that merely
      starts with ".." is refused although it lies inside the directory. */
  lemma DotDotNameRefused()
    ensures var d := PathForm(true, ["srv"]);
            var t := PathForm(true, ["srv", "..foo"]);
            Within(d, t) && !Admitted(d, t) && Escapes(RelForms(d, t))
  {
    var d := PathForm(true, ["srv"]);
    var t := PathForm(true, ["srv", "..foo"]);
    assert !Contains("srv", "/") by {
      forall i | 0 <= i < 3 ensures "srv"[i] != '/' {
        assert "srv"[i] in "srv";
      }
      LacksFirst("srv", "/");
    }
    assert !Contains("..foo", "/") by {
      forall i | 0 <= i < 5 ensures "..foo"[i] != '/' {
        assert "..foo"[i] in "..foo";
      }
      LacksFirst("..foo", "/");
    }
    assert d.elems[0] == "srv" && t.elems[0] == "srv" && t.elems[1] == "..foo";
    assert Canonical(d) && Canonical(t);
    assert t.elems[..1] == d.elems;
    assert HasPrefix("..foo", "..") by {
      assert "..foo"[..2] == "..";
    }
    RelFormsGuard(d, t);
  }

  lemma SrvClimb()
    ensures Lex(GetTarget("/srv", "../x")) == PathForm(true, ["x"])
  {
    SrvForm();
    DotDotXForm();
    LexAppend("/srv", "../x");
    assert GetTarget("/srv", "../x") == "/srv" + "/" + "../x";
    var es: seq<string> := ["..", "x"];
    assert es[0] == ".." && es[1..] == ["x"] && ["x"][0] == "x" && ["x"][1..] == [];
    OneCharNoSlash('x');
    assert "x" == ['x'];
    assert Step(["srv"], true, "..") == [];
    assert Step([], true, "x") == ["x"];
    assert Resolve([], true, ["x"]) == Resolve(["x"], true, []) == ["x"];
    assert Resolve(["srv"], true, es) == Resolve([], true, ["x"]);
  }

  lemma UnescapeClimb()
    ensures Percent.Unescape("..%2Fx") == Some("../x")
  {
    var e := "..%2Fx";
    var e1, e2, e3 := e[1..], e[2..], e[5..];
    assert e3 == "x" && e2[3..] == e3 && e1[1..] == e2 && e[1..] == e1;
    assert e2[0] == '%' && e2[1] == '2' && e2[2] == 'F' && e1[0] == '.' && e[0] == '.';
    Percent.UnescapePlain(e3);
    assert Percent.HexValue('2') * 16 + Percent.HexValue('F') == '/' as int;
    assert ['/'] + e3 == "/x" && ['.'] + "/x" == "./x" && ['.'] + "./x" == "../x";
    assert Percent.Unescape(e2) == Some("/x");
    assert Percent.Unescape(e1) == Some(['.'] + "/x");
    assert Percent.Unescape(e) == Some(['.'] + "./x");
  }

  lemma SrvForm()
    ensures Lex("/srv") == PathForm(true, ["srv"])
  {
    assert !Contains("srv", "/") by {
      forall i | 0 <= i < 3 ensures "srv"[i] != '/' {
        assert "srv"[i] in "srv";
      }
      LacksFirst("srv", "/");
    }
    assert ["srv"][0] == "srv";
    assert Canonical(PathForm(true, ["srv"]));
    assert Render(PathForm(true, ["srv"])) == "/" + "srv";
    LexRenderRootedNames(["srv"]);
  }

  lemma DotDotXForm()
    ensures Lex("../x") == PathForm(false, ["..", "x"])
    ensures Clean("../x") == "../x"
    ensures Split("../x", "/") == ["..", "x"]
  {
    var es := ["..", "x"];
    assert es[1..] == ["x"];
    assert Join(es, "/") == ".." + "/" + "x";
    assert ".." + "/" + "x" == "../x";
    assert !Contains("..", "/") by {
      forall i | 0 <= i < 2 ensures ".."[i] != '/' {
        assert ".."[i] in "..";
      }
      LacksFirst("..", "/");
    }
    OneCharNoSlash('x');
    assert "x" == ['x'];
    assert es[0] == ".." && es[1] == "x";
    assert Canonical(PathForm(false, es));
    LexRenderRelative(es);
    SplitJoin(es, "/");
  }

  /** The file a POST of the segments `segs` writes: their join, cleaned,
      joined under the directory (connections.go:116-117). */
  function PostTarget(dir: string, segs: seq<string>): string
  {
    JoinPath([dir, Clean(JoinPath(segs))])
  }

  /** connections.go:115-152: the guard, then the file operations. */
  function PostFile(dir: string, segs: seq<string>, content: string, fs: Files, fault: FileFault): (r: (Reply, Files))
  {
    var full := PostTarget(dir, segs);
    Store(dir, Lex(full), !Escapes(Rel(dir, full)), content, fs, fault)
  }

  /** connections.go:118-151: refused unless `admitted`, then MkdirAll,
      OpenFile with O_TRUNC, and WriteString of `content` at `t`. */
  function Store(dir: string, t: PathForm, admitted: bool, content: string, fs: Files, fault: FileFault): (r: (Reply, Files))
  {
    if !admitted then (BadUpload, fs)
    else if fault == MkdirFails || FileAbove(fs, t) then (ServerError, fs)
    else if fault == OpenFails || IsDirectory(dir, fs, t) then (ServerError, fs)
    else if fault.WriteFails? then
      (ServerError, fs[t := content[..if fault.written < |content| then fault.written else |content|]])
    else (Created, fs[t := content])
  }

  /** Storing refuses exactly what is not admitted, touches at most the
      target and only when admitted, and creates it exactly when every step
      succeeds. */
  lemma StoreTouches(dir: string, t: PathForm, admitted: bool, content: string, fs: Files, fault: FileFault)
    ensures var (r, fs') := Store(dir, t, admitted, content, fs, fault);
            && (r == BadUpload <==> !admitted)
            && (fs' == fs || (admitted && fs'.Keys == fs.Keys + {t} &&
                              forall k | k in fs && k != t :: fs'[k] == fs[k]))
            && (r == Created <==> fs' == fs[t := content] && admitted && fault == NoFault &&
                                  !FileAbove(fs, t) && !IsDirectory(dir, fs, t))
            && (admitted && r != Created ==> r == ServerError)
            && (fs' != fs ==> t in fs' && fs'[t] <= content)
  {
  }

  /** The upload guard refuses exactly the targets that are not the
      directory or below it through a first element not starting with "..";
      an upload touches at most the one target file, and only when the guard
      admits it, so nothing outside the directory ever changes. */
  lemma PostFileContained(dir: string, segs: seq<string>, content: string, fs: Files, fault: FileFault)
    ensures var (r, fs') := PostFile(dir, segs, content, fs, fault);
            var t := Lex(PostTarget(dir, segs));
            && (r == BadUpload <==> !Admitted(Lex(dir), t))
            && (fs' == fs || (Within(Lex(dir), t) && fs'.Keys == fs.Keys + {t} &&
                              forall k | k in fs && k != t :: fs'[k] == fs[k]))
            && (r == Created <==> fs' == fs[t := content] && Admitted(Lex(dir), t) && fault == NoFault &&
                                  !FileAbove(fs, t) && !IsDirectory(dir, fs, t))
            && (Admitted(Lex(dir), t) && r != Created ==> r == ServerError)
            && (fs' != fs ==> t in fs' && fs'[t] <= content)
  {
    var full := PostTarget(dir, segs);
    var ok := !Escapes(Rel(dir, full));
    StoreTouches(dir, Lex(full), ok, content, fs, fault);
    RelGuard(dir, full);
    if ok {
      GuardKeepsUnderDir(dir, full);
    }
  }

  /** Storing anywhere within the directory keeps the layout. */
  lemma StoreKeepsLayout(dir: string, t: PathForm, admitted: bool, content: string, fs: Files, fault: FileFault)
    requires Layout(dir, fs)
    requires admitted ==> Within(Lex(dir), t)
    ensures Layout(dir, Store(dir, t, admitted, content, fs, fault).1)
  {
    var fs' := Store(dir, t, admitted, content, fs, fault).1;
    if fs' != fs {
      assert !FileAbove(fs, t) && !IsDirectory(dir, fs, t);
      forall a, b | a in fs' && b in fs'
        ensures !Below(a, b)
      {
        if a == t {
          assert b != t ==> b in fs;
        } else if b == t {
          assert a in fs;
        }
      }
      assert !Below(t, Lex(dir));
    }
  }

  /** Uploads keep the filesystem a tree with `dir` as a directory. */
  lemma PostFileKeepsLayout(dir: string, segs: seq<string>, content: string, fs: Files, fault: FileFault)
    requires Layout(dir, fs)
    ensures Layout(dir, PostFile(dir, segs, content, fs, fault).1)
  {
    var full := PostTarget(dir, segs);
    if !Escapes(Rel(dir, full)) {
      GuardKeepsUnderDir(dir, full);
    }
    StoreKeepsLayout(dir, Lex(full), !Escapes(Rel(dir, full)), content, fs, fault);
  }

  /** A POST and a GET of the same one-segment name under a non-empty
      directory address the same file. */
  lemma SameFile(dir: string, name: string)
    requires dir != ""
    ensures Lex(PostTarget(dir, [name])) == Lex(GetTarget(dir, name))
  {
    assert Join([name], "/") == name;
    CleanIdempotent(name);
    assert Clean(JoinPath([name])) == Clean(name);
    assert [dir, Clean(name)][1..] == [Clean(name)];
    assert Join([dir, Clean(name)], "/") == GetTarget(dir, name);
    CleanIdempotent(GetTarget(dir, name));
  }

  /** An upload under several segments is one file, `dir` and the joined
      segments cleaned. A GET names one segment, so it reaches that file
      through a segment holding the joined path, its slashes
      percent-encoded (or any other spelling that cleans the same). The
      first segment must not be empty: for ["", "..", "x"] the upload
      cleans "../x" but the joined segment is the rooted "/../x". */
  lemma SegmentsFetchedAsOne(dir: string, segs: seq<string>)
    requires dir != "" && segs != [] && segs[0] != ""
    ensures Lex(PostTarget(dir, segs)) == Lex(GetTarget(dir, Join(segs, "/")))
  {
    var c := JoinPath(segs);
    assert c == Clean(Join(segs, "/"));
    assert [dir, Clean(c)][1..] == [Clean(c)];
    assert Join([dir, c], "/") == GetTarget(dir, Join(segs, "/"));
    CleanIdempotent(GetTarget(dir, Join(segs, "/")));
  }

  /** After a successful upload under a non-empty directory, a GET of the
      joined segments gives back exactly what was uploaded. */
  lemma UploadThenDownload(dir: string, segs: seq<string>, content: string, fs: Files)
    requires dir != "" && segs != [] && segs[0] != ""
    requires PostFile(dir, segs, content, fs, NoFault).0 == Created
    ensures GetFile(dir, Join(segs, "/"), PostFile(dir, segs, content, fs, NoFault).1) ==
              Reply(200, "OK", Some("application/octet-stream"), content)
  {
    PostFileContained(dir, segs, content, fs, NoFault);
    SegmentsFetchedAsOne(dir, segs);
  }

  /** With an empty directory (the server's default), an upload of "a"
      writes the relative path "a", while a GET of "a" reads "/a": the
      upload succeeds and the download of the same name finds nothing. */
  lemma EmptyDirUploadUnreadable()
    ensures PostFile("", ["a"], "x", map[], NoFault) == (Created, map[PathForm(false, ["a"]) := "x"])
    ensures GetFile("", "a", map[PathForm(false, ["a"]) := "x"]) == NotFound
  {
    EmptyDirTargets();
    var t := PathForm(false, ["a"]);
    assert !Escapes(Rel("", "a")) by {
      RelGuard("", "a");
      assert !HasPrefix("a", "..");
    }
    assert !FileAbove(map[], t) && !IsDirectory("", map[], t);
    assert Store("", t, true, "x", map[], NoFault) == (Created, map[t := "x"]);
    assert ReadFile(map[t := "x"], GetTarget("", "a")) == None;
  }

  lemma EmptyDirTargets()
    ensures PostTarget("", ["a"]) == "a" && Lex("a") == PathForm(false, ["a"])
    ensures Lex("") == PathForm(false, [])
    ensures Lex(GetTarget("", "a")) == PathForm(true, ["a"])
  {
    OneCharNoSlash('a');
    assert "a" == ['a'];
    assert Canonical(PathForm(false, ["a"]));
    assert Join(["a"], "/") == "a";
    LexRenderRelative(["a"]);
    assert Clean("a") == "a";
    assert JoinPath(["a"]) == "a";
    assert ["", "a"][1..] == ["a"];
    assert Split("", "/") == [""];
    LexRenderRootedNames(["a"]);
    assert Render(PathForm(true, ["a"])) == "/a";
    assert GetTarget("", "a") == "/a";
  }

  /** The outcome of the routing switch: a reply and the files after it, or
      a Go panic from indexing a segment that is not there. */
  datatype Outcome = Replied(reply: Reply, files: Files) | Crashed(site: Request.PanicSite)

  /** connections.go:77-159. */
  function Route(dir: string, req: Request.Request, fs: Files, fault: FileFault): (o: Outcome)
    ensures o.Crashed? <==>
              |req.path| < 2 ||
              (|req.path| < 3 && (req.path[1] == "echo" || (req.path[1] == "files" && req.verb == "GET")))
    ensures o.Replied? && !(|req.path| >= 2 && req.path[1] == "files" && req.verb == "POST") ==> o.files == fs
    ensures |req.path| >= 2 && req.path[1] == "files" && req.verb == "POST" ==>
              var (reply, fs') := PostFile(dir, req.path[2..], Join(req.body, "\n"), fs, fault);
              o == Replied(reply, fs')
  {
    var path := req.path;
    if |path| < 2 then Crashed(Request.PathSegment(1))
    else if path[1] == "" then Replied(TextReply(200, "OK", ""), fs)
    else if path[1] == "echo" then
      if |path| < 3 then Crashed(Request.PathSegment(2))
      else Replied(TextReply(200, "OK", path[2]), fs)
    else if path[1] == "user-agent" then
      if "User-Agent" in req.headers then Replied(TextReply(200, "OK", req.headers["User-Agent"]), fs)
      else Replied(MissingAgent, fs)
    else if path[1] == "files" then
      if req.verb == "GET" then
        if |path| < 3 then Crashed(Request.PathSegment(2))
        else Replied(GetFile(dir, path[2], fs), fs)
      else if req.verb == "POST" then
        var (reply, fs') := PostFile(dir, path[2..], Join(req.body, "\n"), fs, fault);
        Replied(reply, fs')
      else Replied(Reply(0, "", None, ""), fs)
    else Replied(NotFound, fs)
  }

  /** Which requests the switch answers with 200, 404, or the status 0 of
      a reply it never filled in, in terms of the path, method, headers and
      files rather than the switch's own branches. */
  lemma RouteStatus(dir: string, req: Request.Request, fs: Files, fault: FileFault)
    requires Route(dir, req, fs, fault).Replied?
    ensures var r := Route(dir, req, fs, fault).reply;
            var p := req.path;
            && |p| >= 2
            && (r.status == 200 <==>
                  || p[1] == "" || p[1] == "echo"
                  || (p[1] == "user-agent" && "User-Agent" in req.headers)
                  || (p[1] == "files" && req.verb == "GET" && Lex(GetTarget(dir, p[2])) in fs))
            && (r.status == 404 <==>
                  || (p[1] !in {"", "echo", "user-agent", "files"})
                  || (p[1] == "files" && req.verb == "GET" && Lex(GetTarget(dir, p[2])) !in fs))
            && (r.status == 0 <==> p[1] == "files" && req.verb != "GET" && req.verb != "POST")
            && (r.status == 400 <==>
                  || (p[1] == "user-agent" && "User-Agent" !in req.headers)
                  || (p[1] == "files" && req.verb == "POST" && !Admitted(Lex(dir), Lex(PostTarget(dir, p[2..])))))
  {
    var p := req.path;
    var r := Route(dir, req, fs, fault).reply;
    if p[1] == "user-agent" {
      assert r.status == 200 || r == MissingAgent;
    } else if p[1] == "files" && req.verb == "GET" {
      assert r == GetFile(dir, p[2], fs);
    } else if p[1] == "files" && req.verb == "POST" {
      PostFileStatus(dir, p[2..], Join(req.body, "\n"), fs, fault);
      PostFileContained(dir, p[2..], Join(req.body, "\n"), fs, fault);
    }
  }

  /** What each route puts in the reply: every reply but the status-0 one
      of an unknown method has a Content-Type, text/plain outside "files";
      echo returns its segment, user-agent the header or a fixed message,
      every 404 the same text, and a successful GET the file's bytes. */
  lemma RouteContent(dir: string, req: Request.Request, fs: Files, fault: FileFault)
    requires Route(dir, req, fs, fault).Replied?
    ensures var r := Route(dir, req, fs, fault).reply;
            var p := req.path;
            && (r.contentType.None? <==> r.status == 0)
            && (p[1] != "files" ==> r.contentType == Some("text/plain"))
            && (p[1] == "echo" ==> r.body == p[2])
            && (p[1] == "user-agent" ==>
                  r.body == if "User-Agent" in req.headers then req.headers["User-Agent"] else "User-Agent header missing")
            && (p[1] == "user-agent" && "User-Agent" !in req.headers ==> r == MissingAgent)
            && (p[1] == "" ==> r.body == "")
            && (r.status == 0 ==> r.reason == "" && r.body == "")
            && (r.status == 200 ==> r.reason == "OK")
            && (r.status == 201 ==> r == Created)
            && (r.status == 400 ==> r == MissingAgent || r == BadUpload)
            && (r.status == 404 ==> r == NotFound)
            && (r.status == 500 ==> r == ServerError)
            && (p[1] == "files" && req.verb == "GET" && r.status == 200 ==>
                  && r.contentType == Some("application/octet-stream")
                  && Lex(GetTarget(dir, p[2])) in fs && r.body == fs[Lex(GetTarget(dir, p[2]))])
  {
    var p := req.path;
    if p[1] == "files" && req.verb == "POST" {
      PostFileStatus(dir, p[2..], Join(req.body, "\n"), fs, fault);
    }
  }

  /** An upload answers 400, 500 or 201, each with its fixed text. */
  lemma PostFileStatus(dir: string, segs: seq<string>, content: string, fs: Files, fault: FileFault)
    ensures PostFile(dir, segs, content, fs, fault).0 in {BadUpload, ServerError, Created}
    ensures PostFile(dir, segs, content, fs, fault).0.status in {400, 500, 201}
    ensures PostFile(dir, segs, content, fs, fault).0.contentType == Some("text/plain")
  {
    var full := PostTarget(dir, segs);
    StoreStatus(dir, Lex(full), !Escapes(Rel(dir, full)), content, fs, fault);
  }

  lemma StoreStatus(dir: string, t: PathForm, admitted: bool, content: string, fs: Files, fault: FileFault)
    ensures Store(dir, t, admitted, content, fs, fault).0 in {BadUpload, ServerError, Created}
    ensures Store(dir, t, admitted, content, fs, fault).0.status in {400, 500, 201}
    ensures Store(dir, t, admitted, content, fs, fault).0.contentType == Some("text/plain")
  {
  }

  /** A reply whose reason phrase and Content-Type can go on a header line:
      neither holds a carriage return. */
  predicate Plain(r: Reply)
  {
    Lacks(r.reason, '\r') && (r.contentType.Some? ==> Lacks(r.contentType.value, '\r'))
  }

  lemma LiteralsPlain()
    ensures Lacks("OK", '\r') && Lacks("Not Found", '\r') && Lacks("Bad Request", '\r')
    ensures Lacks("Internal Server Error", '\r') && Lacks("Created", '\r')
    ensures Lacks("text/plain", '\r') && Lacks("application/octet-stream", '\r')
  {
    forall i | 0 <= i < 2 ensures "OK"[i] != '\r' { assert "OK"[i] in "OK"; }
    forall i | 0 <= i < 9 ensures "Not Found"[i] != '\r' { assert "Not Found"[i] in "Not Found"; }
    forall i | 0 <= i < 11 ensures "Bad Request"[i] != '\r' { assert "Bad Request"[i] in "Bad Request"; }
    forall i | 0 <= i < 21 ensures "Internal Server Error"[i] != '\r' {
      assert "Internal Server Error"[i] in "Internal Server Error";
    }
    forall i | 0 <= i < 7 ensures "Created"[i] != '\r' { assert "Created"[i] in "Created"; }
    forall i | 0 <= i < 10 ensures "text/plain"[i] != '\r' { assert "text/plain"[i] in "text/plain"; }
    forall i | 0 <= i < 24 ensures "application/octet-stream"[i] != '\r' {
      assert "application/octet-stream"[i] in "application/octet-stream";
    }
  }

  lemma GetFilePlain(dir: string, name: string, fs: Files)
    ensures Plain(GetFile(dir, name, fs))
  {
    LiteralsPlain();
  }

  lemma PostFilePlain(dir: string, segs: seq<string>, content: string, fs: Files, fault: FileFault)
    ensures Plain(PostFile(dir, segs, content, fs, fault).0)
  {
    LiteralsPlain();
    assert Plain(BadUpload) && Plain(ServerError) && Plain(Created);
    PostFileStatus(dir, segs, content, fs, fault);
  }

  /** Every reply the switch produces is one of its fixed reason phrases
      and content types, so it can be written as a header. */
  lemma RoutePlain(dir: string, req: Request.Request, fs: Files, fault: FileFault)
    ensures Route(dir, req, fs, fault).Replied? ==> Plain(Route(dir, req, fs, fault).reply)
  {
    LiteralsPlain();
    var path := req.path;
    if |path| >= 2 {
      if path[1] == "" || path[1] == "echo" || path[1] == "user-agent" {
        assert Plain(TextReply(200, "OK", "")) && Plain(MissingAgent);
        assert forall b :: Plain(TextReply(200, "OK", b));
      } else if path[1] == "files" {
        if req.verb == "GET" && |path| >= 3 {
          GetFilePlain(dir, path[2], fs);
        } else if req.verb == "POST" {
          PostFilePlain(dir, path[2..], Join(req.body, "\n"), fs, fault);
        }
      } else {
        assert Plain(NotFound);
      }
    }
  }
}

=== FILE: strings.dfy ===
/** The byte-string operations the connection handler relies on: Go's
    `strings.Index`, `Split`, `SplitN(s, sep, 2)`, `Join`, `HasPrefix`,
    `Contains` and `ToLower`, and the decimal rendering `fmt.Sprint` gives an
    `int`. A Dafny `string` stands for a Go string, one char per byte. */
module Strings {

  datatype Option<+T> = None | Some(value: T)

  const CRLF: string := "\r\n"

  /** `sep` occurs in `s` starting at index `i`. */
  predicate OccursAt(s: string, sep: string, i: nat)
  {
    i + |sep| <= |s| && s[i..i + |sep|] == sep
  }

  predicate Contains(s: string, sep: string)
  {
    exists i: nat | i <= |s| :: OccursAt(s, sep, i)
  }

  predicate HasPrefix(s: string, prefix: string)
  {
    |prefix| <= |s| && s[..|prefix|] == prefix
  }

  /** No proper suffix of `sep` is also a prefix of it, so two occurrences of
      `sep` can never overlap ("\r\n", ": ", "/" and " " all qualify). */
  predicate SelfOverlapFree(sep: string)
  {
    forall j | 0 < j < |sep| :: !BorderAt(sep, j)
  }

  predicate BorderAt(sep: string, j: nat)
    requires j <= |sep|
  {
    sep[j..] == sep[..|sep| - j]
  }

  lemma CRLFSelfOverlapFree()
    ensures SelfOverlapFree(CRLF)
  {
    assert CRLF[1..] == ['\n'] && CRLF[..1] == ['\r'];
    assert !BorderAt(CRLF, 1);
  }

  /** The first occurrence of `sep` at or after `i`. */
  function IndexFrom(s: string, sep: string, i: nat): (r: Option<nat>)
    requires i <= |s|
    ensures r.Some? ==> i <= r.value && OccursAt(s, sep, r.value)
    ensures r.Some? ==> forall j: nat :: i <= j < r.value ==> !OccursAt(s, sep, j)
    ensures r.None? ==> forall j: nat :: i <= j ==> !OccursAt(s, sep, j)
    decreases |s| - i
  {
    if i + |sep| > |s| then None
    else if OccursAt(s, sep, i) then Some(i)
    else IndexFrom(s, sep, i + 1)
  }

  /** strings.Index: the first occurrence of `sep` in `s`. */
  function IndexOf(s: string, sep: string): (r: Option<nat>)
    ensures r.Some? ==> OccursAt(s, sep, r.value)
    ensures r.Some? ==> forall j: nat :: j < r.value ==> !OccursAt(s, sep, j)
    ensures r.None? <==> !Contains(s, sep)
  {
    IndexFrom(s, sep, 0)
  }

  /** strings.Join */
  function Join(parts: seq<string>, sep: string): string
  {
    if |parts| == 0 then ""
    else if |parts| == 1 then parts[0]
    else parts[0] + sep + Join(parts[1..], sep)
  }

  lemma NoOccurrenceBeforeFirst(s: string, sep: string, k: nat)
    requires |sep| > 0 && k <= |s|
    requires forall j: nat :: j < k ==> !OccursAt(s, sep, j)
    ensures !Contains(s[..k], sep)
  {
    forall j: nat | OccursAt(s[..k], sep, j)
      ensures false
    {
      assert s[..k][j..j + |sep|] == s[j..j + |sep|];
      assert OccursAt(s, sep, j);
    }
  }

  /** strings.Split for a non-empty separator: the pieces between the
      occurrences of `sep`, found left to right. */
  function Split(s: string, sep: string): (parts: seq<string>)
    requires |sep| > 0
    ensures |parts| >= 1
    ensures Join(parts, sep) == s
    ensures forall i :: 0 <= i < |parts| ==> !Contains(parts[i], sep)
    decreases |s|
  {
    match IndexOf(s, sep)
    case None => [s]
    case Some(k) =>
      NoOccurrenceBeforeFirst(s, sep, k);
      var rest := Split(s[k + |sep|..], sep);
      assert s == s[..k] + sep + s[k + |sep|..] by {
        assert s[k..k + |sep|] == sep;
      }
      assert ([s[..k]] + rest)[1..] == rest;
      [s[..k]] + rest
  }

  /** strings.SplitN(s, sep, 2) on a non-empty `s`: the text before and after
      the first `sep`, or nothing when `sep` does not occur. */
  function Cut(s: string, sep: string): (r: Option<(string, string)>)
    requires |sep| > 0
    ensures r.None? <==> !Contains(s, sep)
    ensures r.Some? ==> r.value.0 + sep + r.value.1 == s
    ensures r.Some? ==> !Contains(r.value.0, sep)
  {
    match IndexOf(s, sep)
    case None => None
    case Some(k) =>
      NoOccurrenceBeforeFirst(s, sep, k);
      assert s == s[..k] + sep + s[k + |sep|..] by {
        assert s[k..k + |sep|] == sep;
      }
      Some((s[..k], s[k + |sep|..]))
  }

  /** A separator that does not overlap itself is found right after a piece
      that does not contain it. */
  lemma FirstOccurrence(p: string, sep: string, rest: string)
    requires |sep| > 0 && SelfOverlapFree(sep) && !Contains(p, sep)
    ensures IndexOf(p + sep + rest, sep) == Some(|p|)
  {
    var s := p + sep + rest;
    assert s[|p|..|p| + |sep|] == sep;
    assert OccursAt(s, sep, |p|);
    var r := IndexOf(s, sep);
    var q := r.value;
    if q < |p| {
      if q + |sep| <= |p| {
        assert s[q..q + |sep|] == p[q..q + |sep|];
        assert OccursAt(p, sep, q);
      } else {
        var j := |p| - q;
        assert 0 < j < |sep|;
        assert s[|p|..q + |sep|] == sep[..|sep| - j];
        assert s[|p|..q + |sep|] == s[q..q + |sep|][j..];
        assert BorderAt(sep, j);
      }
    }
  }

  lemma {:induction false} CutJoin(a: string, sep: string, b: string)
    requires |sep| > 0 && SelfOverlapFree(sep) && !Contains(a, sep)
    ensures Cut(a + sep + b, sep) == Some((a, b))
  {
    FirstOccurrence(a, sep, b);
    var s := a + sep + b;
    assert s[..|a|] == a;
    assert s[|a| + |sep|..] == b;
  }

  /** Splitting undoes joining when no piece contains the separator. */
  lemma {:induction false} SplitJoin(parts: seq<string>, sep: string)
    requires |parts| >= 1 && |sep| > 0 && SelfOverlapFree(sep)
    requires forall i :: 0 <= i < |parts| ==> !Contains(parts[i], sep)
    ensures Split(Join(parts, sep), sep) == parts
    decreases |parts|
  {
    if |parts| == 1 {
      assert Join(parts, sep) == parts[0];
    } else {
      var tail := Join(parts[1..], sep);
      var s := parts[0] + sep + tail;
      assert Join(parts, sep) == s;
      FirstOccurrence(parts[0], sep, tail);
      assert s[..|parts[0]|] == parts[0];
      assert s[|parts[0]| + |sep|..] == tail;
      SplitJoin(parts[1..], sep);
      assert [parts[0]] + parts[1..] == parts;
    }
  }

  lemma {:induction false} JoinAppend(xs: seq<string>, ys: seq<string>, sep: string)
    requires |xs| >= 1 && |ys| >= 1
    ensures Join(xs + ys, sep) == Join(xs, sep) + sep + Join(ys, sep)
    decreases |xs|
  {
    if |xs| == 1 {
      assert (xs + ys)[1..] == ys;
    } else {
      JoinAppend(xs[1..], ys, sep);
      assert (xs + ys)[1..] == xs[1..] + ys;
    }
  }

  lemma JoinCons(x: string, xs: seq<string>, sep: string)
    ensures Join([x] + xs, sep) == if xs == [] then x else x + sep + Join(xs, sep)
  {
    assert ([x] + xs)[1..] == xs;
  }

  lemma SlashSelfOverlapFree()
    ensures SelfOverlapFree("/")
  {
  }

  /** Splitting distributes over a separator. */
  lemma SplitAppend(a: string, b: string, sep: string)
    requires |sep| > 0 && SelfOverlapFree(sep)
    ensures Split(a + sep + b, sep) == Split(a, sep) + Split(b, sep)
  {
    var xs := Split(a, sep);
    var ys := Split(b, sep);
    JoinAppend(xs, ys, sep);
    forall i | 0 <= i < |xs + ys|
      ensures !Contains((xs + ys)[i], sep)
    {
      if i < |xs| {
        assert (xs + ys)[i] == xs[i];
      } else {
        assert (xs + ys)[i] == ys[i - |xs|];
      }
    }
    SplitJoin(xs + ys, sep);
  }

  /** No character of `s` is `c`. */
  predicate Lacks(s: string, c: char)
  {
    forall i | 0 <= i < |s| :: s[i] != c
  }

  /** A string without the separator's first character cannot contain it. */
  lemma LacksFirst(s: string, sep: string)
    requires |sep| > 0 && Lacks(s, sep[0])
    ensures !Contains(s, sep)
  {
    forall i: nat | i + |sep| <= |s|
      ensures !OccursAt(s, sep, i)
    {
      assert s[i..i + |sep|][0] == s[i] != sep[0];
    }
  }

  lemma LacksConcat(a: string, b: string, c: char)
    requires Lacks(a, c) && Lacks(b, c)
    ensures Lacks(a + b, c)
  {
  }

  /** Go's `strings.ToLower` on ASCII letters; every other byte is unchanged. */
  function LowerChar(c: char): char
  {
    if 'A' <= c <= 'Z' then (c as int + 32) as char else c
  }

  function Lower(s: string): (r: string)
    ensures |r| == |s|
    ensures forall i | 0 <= i < |r| :: !('A' <= r[i] <= 'Z')
    ensures forall i | 0 <= i < |r| :: r[i] == s[i] || ('A' <= s[i] <= 'Z' && r[i] as int == s[i] as int + 32)
  {
    seq(|s|, i requires 0 <= i < |s| => LowerChar(s[i]))
  }

  /** A header value lower-cases to "close" exactly when it spells "close"
      in any mix of upper- and lower-case letters. */
  lemma LowerClose(s: string)
    ensures Lower(s) == "close" <==>
              |s| == 5 && forall i | 0 <= i < 5 :: s[i] == "close"[i] || s[i] == "CLOSE"[i]
  {
    if |s| == 5 {
      var r := Lower(s);
      if forall i | 0 <= i < 5 :: s[i] == "close"[i] || s[i] == "CLOSE"[i] {
        forall i | 0 <= i < 5 ensures r[i] == "close"[i] {
          assert r[i] == LowerChar(s[i]);
        }
      }
      if r == "close" {
        forall i | 0 <= i < 5 ensures s[i] == "close"[i] || s[i] == "CLOSE"[i] {
          assert r[i] == LowerChar(s[i]) == "close"[i];
        }
      }
    }
  }

  predicate IsDigit(c: char)
  {
    '0' <= c <= '9'
  }

  predicate AllDigits(s: string)
  {
    forall i | 0 <= i < |s| :: IsDigit(s[i])
  }

  function DigitChar(d: nat): char
    requires d < 10
  {
    ('0' as int + d) as char
  }

  /** The number written by a string of decimal digits. */
  function DigitsValue(s: string): nat
    requires AllDigits(s)
    decreases |s|
  {
    if s == [] then 0
    else DigitsValue(s[..|s| - 1]) * 10 + (s[|s| - 1] as int - '0' as int)
  }

  /** What a client makes of a decimal field such as Content-Length. */
  function ParseDecimal(s: string): Option<nat>
  {
    if s != [] && AllDigits(s) then Some(DigitsValue(s)) else None
  }

  /** fmt.Sprint of a non-negative int: its decimal digits, without leading
      zeros, which a decimal parser reads back as the same number. */
  function Decimal(n: nat): (s: string)
    ensures s != [] && AllDigits(s)
    ensures s[0] == '0' ==> s == "0"
    ensures ParseDecimal(s) == Some(n)
    decreases n
  {
    if n < 10 then
      var s := [DigitChar(n)];
      assert s[..0] == [];
      assert DigitsValue(s) == s[0] as int - '0' as int == n;
      s
    else
      var front := Decimal(n / 10);
      var s := front + [DigitChar(n % 10)];
      assert s[..|s| - 1] == front;
      assert DigitsValue(s) == (n / 10) * 10 + n % 10;
      s
  }
}
